=== FILE: README.md ===
# Spike-Editor robot logic in Dafny

This project models the decision logic of the Spike-Editor scripts. These are short
programs for a LEGO SPIKE Prime robot, plus a Chrome extension that reports the caret
column of the SPIKE web editor. The model covers:

- the two debounced colour counters: `ColorCounter` in the line counter, and the four
  cooperating tasks of the hand-wave script;
- the proportional line-following step, in its plain and its educational version;
- the sentinel-aware `is_near` predicates and the colour test;
- the command sequences of the four-square, getting-started and lambda-test scripts;
- the extension's caret-column lookup, its send shortcut, and the service worker's
  injection guard.

Hardware is never called. A sensor reading is a parameter, or one element of a sequence
of readings. What a script does to the robot is the list of `Robot.Command`s it would
issue; the line counter's model reports its stop decision and tallies instead. A loop that reads the sensor becomes a fold over its readings. When the readings
run out before the loop's exit condition holds, the robot is still running or still
waiting.

Modules:

- `Options`: an option type.
- `Robot`: the command vocabulary, and functions that read a trace (net straight
  displacement, counts, light-matrix text).
- `Sensors`: the distance sensor's `-1` "no object" sentinel, the reference meaning of
  "near", and the colour codes 3, 7 and 9.
- `PController`: the shared proportional law.
- One module per script file.

Two scripts differ from their siblings, and the model follows each script as written:

- Every other proximity test (`Python/hand_wave.py:86`, `sensor_four_square.py:12`,
  `Python/lambda_test.py:20`) fails closed on the `-1` sentinel. The stop test of
  `Python/line_counter.py:117` does not (see Findings).
- `Python/hand_wave.py` leaves the last colour alone on a non-matching reading, while
  `ColorCounter` stores every reading, so a non-matching reading re-arms it: red, another
  colour, red counts red twice in `LineCounter.RedOtherRedCountsTwice` and once in
  `HandWave.RedWhiteRedCountsOnce`. Because the three checks of one poll share that
  stored reading, a yellow or blue line is never counted while it stays under the sensor
  (see Findings).

## Model

| member | source | states |
|---|---|---|
| Sensors.Decode | Python/sensor_four_square.py:24-30 | -1 decodes to "no object"; every other raw value is a distance in millimetres |
| Sensors.DecodeEncode | Python/sensor_four_square.py:24-30 | encoding a decoded distance and decoding it again gives it back |
| Sensors.EncodeDecode | Python/sensor_four_square.py:24-30 | decoding any raw reading and re-encoding it gives the raw reading back, sentinel included |
| Sensors.NearMonotone | Python/sensor_four_square.py:21-30 | a reading near for some threshold is near for every larger one |
| Sensors.FirstNear | Python/sensor_four_square.py:83 | the reading that ends a proximity wait is the least index whose reading is near; with none, no reading is near |
| Sensors.CountNearFromFirst | Python/lambda_test.py:8-15 | the near readings are the one that ends the first wait plus those after it |
| Sensors.IsNear | Python/getting_started_sensors.py:28-37 | -1 is never near, whatever the threshold; any other reading is near exactly when strictly below the threshold, 100 by default; Python/sensor_four_square.py defines the same predicate |
| Sensors.IsColorRed | Python/getting_started_sensors.py:15-16 | red exactly when the code is the red colour's code; Python/sensor_four_square.py defines the same test |
| Sensors.FromCode | Python/hand_wave.py:15-17 | a code maps to the line colour it stands for; a code no colour has maps to nothing |
| Sensors.CodeRoundTrip | Python/hand_wave.py:15-17 | every colour's code maps back to that colour |
| Sensors.CodeInjective | Python/hand_wave.py:15-17 | distinct colours have distinct codes |
| LineCounter.Fresh | Python/line_counter.py:41-55 | a new counter has all three tallies at 0 and no colour seen |
| LineCounter.LookForColor | Python/line_counter.py:57-96 | the named tally rises by one exactly when reading equals target and the last seen colour is not the target; no other tally changes; the reading is remembered whether or not it counted |
| LineCounter.UnknownNameCountsNothing | Python/line_counter.py:85-90 | a colour name other than red, yellow and blue changes no tally |
| LineCounter.Feed | Python/line_counter.py:96 | after a run of calls the colour remembered is the last reading, or the earlier one when there were none |
| LineCounter.FeedCountsRisingEdges | Python/line_counter.py:83-96 | repeated calls raise a tally by exactly the number of rising edges into the target colour in the readings |
| LineCounter.RedRedRedBlueRed | Python/line_counter.py:83-96 | red, red, red, blue, red against the red target gives a red tally of exactly 2 |
| LineCounter.RedOtherRedCountsTwice | Python/line_counter.py:83-96 | red, another colour, red against the red target counts red twice, because the reading in between is remembered |
| LineCounter.Poll | Python/line_counter.py:109-111 | red counts on a rising edge into red; yellow counts only when its reading is yellow and the red check's reading was not, blue only when its reading is blue and the yellow check's reading was not; the remembered colour is the blue check's reading |
| LineCounter.PollSteadyIdempotent | Python/line_counter.py:109-111 | a second poll on an unchanged reading changes nothing |
| LineCounter.SteadyPollsCountAtMostOnce | Python/line_counter.py:107-111 | any number of polls on a constant reading equals one poll, and raises each tally at most once |
| LineCounter.SteadyYellowOrBlueNeverCounts | Python/line_counter.py:109-111 | however many polls read yellow, the yellow tally does not move, and likewise for blue |
| LineCounter.PollCorrected | Python/line_counter.py:109-111 | corrected poll: each tally rises exactly on a rising edge into its colour from the colour stored by the previous poll |
| LineCounter.FeedCorrected | Python/line_counter.py:107-111 | after corrected polls the remembered colour is the last reading |
| LineCounter.FeedCorrectedCountsRisingEdges | Python/line_counter.py:107-111 | with corrected polls each tally rises by exactly the number of rising edges into its colour |
| LineCounter.CrossingYellowLine | Python/line_counter.py:109-111 | three polls on a yellow line leave the yellow tally at 0 as written and at 1 corrected |
| LineCounter.StopAsWritten | Python/line_counter.py:117 | the stop test as written: a present reading below 10 |
| LineCounter.StopAsWrittenFiresWithoutObject | Python/line_counter.py:117 | as written, the -1 "no object" reading stops the robot, although it is not near |
| LineCounter.StopAsWrittenMissesFiveCentimetres | Python/line_counter.py:116-117 | as written, an object 50 mm away, inside the 10 cm the comment names, does not stop the robot |
| LineCounter.StopCorrected | Python/line_counter.py:114-117 | corrected stop test: stops exactly on a present reading that is near 100 mm, so never on -1 |
| LineCounter.StopTestsDiffer | Python/line_counter.py:116-117 | the two stop tests differ exactly on -1 and on readings from 10 up to but excluding 100 |
| LineCounter.RunLoop | Python/line_counter.py:107-142 | the loop stops at the first iteration whose distance stops it, after that iteration's checks; the tallies shown are those of the polls run; without a stopping reading every sample is polled |
| LineCounter.Run | Python/line_counter.py:107-142 | `main` as written stops at the first iteration whose distance is present and below 10, -1 included, with the tallies of the as-written polls run |
| LineCounter.RunCorrected | Python/line_counter.py:107-142 | the corrected loop stops at the first iteration that sees an object closer than 100 mm, with the tallies of the corrected polls run |
| LineCounter.OpenSpaceStopsAsWritten | Python/line_counter.py:114-119 | with no object in sight the loop as written stops after one iteration, while the corrected loop runs on |
| HandWave.Initial | Python/hand_wave.py:10-27 | all counts 0, no last colour, stop flag down |
| HandWave.CheckStep | Python/hand_wave.py:31-74 | a stopped task does nothing; a task counts only when its code is read and is not the last counted colour, and then its count rises by one, the last colour becomes its code and no other count changes; otherwise nothing changes, the last colour included |
| HandWave.WaveStops | Python/hand_wave.py:86 | the hand-wave stop fires exactly on a real reading below 50 mm, never on -1 |
| HandWave.WaveStep | Python/hand_wave.py:80-94 | a wave stops the motors once and raises the stop flag; anything else does nothing |
| HandWave.Apply | Python/hand_wave.py:31-97 | one loop body of any task lowers no count and raises at most one, by one; keeps the last colour none or a colour code; does nothing once stopped; and issues a command only when it is the wave that raises the stop flag, and then only a stop |
| HandWave.Run | Python/hand_wave.py:31-97 | once the stop flag is raised no task changes anything or issues a command; a run stops the motors at most once, and exactly when it raises the stop flag |
| HandWave.RunKeepsValidLast | Python/hand_wave.py:45-71 | in every order the tasks run, the last colour stays none, 3, 7 or 9 |
| HandWave.RunCountsGrow | Python/hand_wave.py:31-74 | over any run no count falls, and the counts rise in total by at most the number of colour checks |
| HandWave.RedWhiteRedCountsOnce | Python/hand_wave.py:65-74 | red, another colour, red counts red once: a non-matching reading does not re-arm |
| HandWave.RedBlueRedCountsTwice | Python/hand_wave.py:31-74 | red, a counted blue, red counts red twice: a different counted colour re-arms |
| PController.Drive | line_follower.py:49-53 | the wheel speeds sum to twice the base speed and differ by twice the gain times the error |
| PController.OnTargetDrivesStraight | line_follower.py:49-53 | on target the correction is 0 and both wheels run at the base speed |
| PController.SteersTowardTarget | line_follower.py:49-53 | with a positive gain, a reading below target makes left faster than right, and above target the reverse |
| PController.MotorCommands | line_follower.py:55-58 | port C first, then port D, each turning its wheel forward at that wheel's speed, port C through its reversed mounting |
| LineFollower.SpeedBounds | line_follower.py:38-53 | for readings 0 to 100, left lies in [-100, 600] and right in [-240, 460], both ends reached, nothing clamped |
| LineFollower.Run | line_follower.py:34-69 | the pair is set up, then 300 steps, each running port C at minus the left speed and port D at the right speed of that step's reading and pausing 100 ms, then both motors stop |
| EducationalLineFollower.Create | Python/educational_line_follower.py:44-52 | a follower keeps the given gains and starts at iteration 0 with both maxima 0 |
| EducationalLineFollower.Default | Python/educational_line_follower.py:44 | the default follower is target 60, speed 150, gain 5 |
| EducationalLineFollower.Step | Python/educational_line_follower.py:79-111 | gains kept, iteration up by one, motor commands of the shared law; each maximum becomes the larger of itself and the step's magnitude; an explanation exactly when asked for and the iteration is a multiple of 10 |
| EducationalLineFollower.Explain | Python/educational_line_follower.py:113-133 | an explanation names the step it is given, says "LEFT" exactly for a positive error, is big exactly above 10 and small exactly up to 5, and reports turning exactly when the force's magnitude exceeds 1 |
| EducationalLineFollower.Direction | Python/educational_line_follower.py:118 | "LEFT" exactly when the error is positive, so a zero error reports "RIGHT" |
| EducationalLineFollower.SizeOf | Python/educational_line_follower.py:128-133 | big above 10, medium above 5 up to 10, small up to 5, by the error's magnitude |
| EducationalLineFollower.SizeOfMonotone | Python/educational_line_follower.py:128-133 | the bucket ignores the error's sign and never shrinks as the magnitude grows |
| EducationalLineFollower.ResultText | Python/educational_line_follower.py:125 | "Turning toward center" exactly when the force's magnitude exceeds 1 |
| EducationalLineFollower.KpLabel | Python/educational_line_follower.py:221 | Weak below 3, Medium from 3 below 8, Strong from 8 |
| EducationalLineFollower.KpLabelMonotone | Python/educational_line_follower.py:221 | a larger gain never gets a weaker label |
| EducationalLineFollower.TenConsecutiveHoldOne | Python/educational_line_follower.py:108 | any ten consecutive step numbers hold exactly one explained step |
| EducationalLineFollower.MultiplesOfBlocks | Python/educational_line_follower.py:108 | 10k consecutive step numbers hold exactly k explained steps |
| EducationalLineFollower.Follow | Python/educational_line_follower.py:70-71 | over a run the commands are, two per reading and in order, the shared law's motor commands for that reading; the iteration rises by the number of readings, the explained steps are exactly the multiples of 10 among the step numbers, and the maxima are the running maxima over all readings |
| EducationalLineFollower.ExtendFollows | Python/educational_line_follower.py:70-71 | one more step after a run keeps every promise of the run, now over one more reading: gains, step count, commands per reading, explained steps and running maxima |
| EducationalLineFollower.DrivesEachStepAppend | Python/educational_line_follower.py:70-71 | the commands of all readings but the last, followed by the last one's, drive every step by the shared law |
| EducationalLineFollower.TryGains | Python/educational_line_follower.py:143-155 | over any list of gains, the follower ends with the last gain tried and is otherwise unchanged, and the loop issues one 1000 ms pause per gain and no other command |
| EducationalLineFollower.CompareDifferentForces | Python/educational_line_follower.py:135-155 | the comparison leaves the gain at 10 with target, speed, step count and maxima unchanged, and issues only three 1000 ms pauses, driving no motor |
| EducationalLineFollower.Demonstrate | Python/educational_line_follower.py:54-77 | the demonstration issues the 100 steps' motor commands and advances the step count by 100, explains exactly ten steps whatever step it starts from and none when explanations are off, and ends by stopping both motors |
| FourSquare.TruncDiv | Python/sensor_four_square.py:57 | `int()` of a quotient truncates toward zero, for negative numerators too |
| FourSquare.MmFromInches | Python/sensor_four_square.py:10-57 | whole millimetres in n inches: 25.4 n with the fraction dropped toward zero |
| FourSquare.WaitThresholds | Python/sensor_four_square.py:57-83 | the step-3 wait threshold is 254 mm and the step-6 loop threshold is 152 mm |
| FourSquare.ApproachShape | Python/sensor_four_square.py:33-80 | the approach turns left three times, each 180 degrees at steering -100, never stops, and its straight moves net -318 - 212 degrees, the two back-offs |
| FourSquare.BackAndForth | Python/sensor_four_square.py:83-89 | the loop exits exactly at the first near reading, after one full pass per earlier check; every pass is 530 forward then 530 back, netting 0 |
| FourSquare.LoopOnlyMovesStraight | Python/sensor_four_square.py:83-89 | the loop issues only straight moves |
| FourSquare.Main | Python/sensor_four_square.py:33-93 | the whole drive makes exactly three quarter turns left and nets only the two back-offs; the pair is stopped exactly when the loop has exited, followed only by a 10 ms pause |
| FourSquareMrKing.IsNear | sensor_four_square.py:10-12 | -1 is never near; any other reading is near exactly when below 100 |
| FourSquareMrKing.SummaryAppend | sensor_four_square.py:14-73 | summaries of two stretches combine into the summary of their concatenation |
| FourSquareMrKing.ApproachSummary | sensor_four_square.py:14-73 | the approach writes 2, 3, 4, 5, 6 in order, turns left three times, each a quarter turn, never stops, and nets only the back-offs of 318 and 212 degrees |
| FourSquareMrKing.Checks | sensor_four_square.py:77-88 | each check takes one reading; the loop exits at the first near reading; every failed check makes one half pass |
| FourSquareMrKing.ChecksAlternate | sensor_four_square.py:77-88 | the commands alternate a move and a 500 ms pause, and the moves alternate forward and back, starting with the one the first check leads to |
| FourSquareMrKing.ChecksDisplacement | sensor_four_square.py:77-88 | an even number of half passes nets 0; an odd number leaves the loop 265 degrees ahead in the direction of its first |
| FourSquareMrKing.ChecksMoves | sensor_four_square.py:77-88 | the loop only moves straight and pauses; its half passes alternate forward and back, each followed by a pause, so an even number nets 0 |
| FourSquareMrKing.BackAndForth | sensor_four_square.py:77-88 | leaving at the top check nets 0; leaving at the check after the forward move breaks out before moving back and is 265 degrees ahead |
| FourSquareMrKing.Main | sensor_four_square.py:14-91 | the matrix shows 2 to 6 in order and nothing else; three quarter turns left; the pair is stopped exactly when the loop exits, as the last command |
| GettingStarted.Pass | Python/getting_started_sensors.py:45-53 | each pass starts the pair moving once, and stops it exactly when `is_near()` holds, the stop followed at once by the 10 ms pause |
| GettingStarted.PausesAfterStopsAppend | Python/getting_started_sensors.py:52-53 | joining traces that pause right after each stop keeps that property |
| GettingStarted.Loop | Python/getting_started_sensors.py:45-53 | over the passes run, one move per pass and one stop per near reading, each stop followed at once by the 10 ms pause |
| GettingStarted.LoopAppend | Python/getting_started_sensors.py:45-53 | the passes run in order: the trace of two runs of readings is the first run's trace followed by the second's |
| GettingStarted.LoopIsPasses | Python/getting_started_sensors.py:45-53 | pass k's commands, its move and any stop, sit in the trace between the passes before it and those after it |
| LambdaTest.IsNear | Python/lambda_test.py:17-20 | the first reading alone decides, by the reference meaning of near at 100 by default; the second read is only printed |
| LambdaTest.CyclePrepend | Python/lambda_test.py:8-15 | one more whole cycle in front of n whole cycles and a started one gives n + 1 whole cycles and a started one |
| LambdaTest.Cycles | Python/lambda_test.py:8-15 | for n near readings the trace is n cycles of move, wait until near, stop, 10 ms pause, followed by a move and a wait still running; the stops equal the near readings, and the pair is started once more than it is stopped |
| SpikeContent.MonacoColumn | spike-caret-extension/spike-content.js:5-10 | the first listed editor, or the focused one when none is listed, gives its column minus one |
| SpikeContent.CodeMirrorColumn | spike-caret-extension/spike-content.js:15-19 | the first CodeMirror 5 instance's cursor column is used as is, when there is one |
| SpikeContent.ViewColumn | spike-caret-extension/spike-content.js:24-31 | `view`, else `cmView`, gives the head's offset from its line's start |
| SpikeContent.Lower | spike-caret-extension/spike-content.js:37 | the tag name is compared in lower case |
| SpikeContent.LastIndexOf | spike-caret-extension/spike-content.js:40 | the last newline at or before the start position, or -1 when there is none |
| SpikeContent.TextareaColumn | spike-caret-extension/spike-content.js:38-41 | never negative; for a caret inside the text, no newline lies between the line start and the caret, and a column shorter than the caret ends just after a newline |
| SpikeContent.ActiveColumn | spike-caret-extension/spike-content.js:36-42 | a focused textarea, of any tag case, gives its caret column; anything else gives nothing |
| SpikeContent.FirstSome | spike-caret-extension/spike-content.js:2-46 | the first answer in order, or none when there is no answer |
| SpikeContent.CaretColumn | spike-caret-extension/spike-content.js:2-46 | the first probe that answers, in the order Monaco, CodeMirror 5, CodeMirror 6, textarea; 0 when none does |
| SpikeContent.FirstLineColumn | spike-caret-extension/spike-content.js:40-41 | with no newline before the caret the column is the caret index |
| SpikeContent.StartIsColumnZero | spike-caret-extension/spike-content.js:39-41 | a caret at 0, or an unknown selection start, gives 0 |
| SpikeContent.AfterNewlineIsColumnZero | spike-caret-extension/spike-content.js:40-41 | a caret just after a newline gives 0 |
| SpikeContent.MonacoTakesPrecedence | spike-caret-extension/spike-content.js:2-11 | a listed Monaco editor with a column wins over every other source |
| SpikeContent.UpperCaseTagIsTextarea | spike-caret-extension/spike-content.js:37 | an upper-case TEXTAREA tag is still read |
| SpikeContent.OnSendKey | spike-caret-extension/spike-content.js:56-62 | a message is sent exactly on Ctrl+Alt with an R of either case, of type "spike-caret" with the caret column |
| SpikeContent.IsRMeansLowerR | spike-caret-extension/spike-content.js:50-57 | a key is compared with 'r' and 'R' exactly when its lower case is "r" |
| SpikeContent.LogsShortcut | spike-caret-extension/spike-content.js:49-53 | the log fires exactly on Ctrl+Shift with an R of either case, Alt held or not, and never on an auto-repeated press |
| SpikeContent.SendIgnoresShiftAndRepeat | spike-caret-extension/spike-content.js:49-62 | shift and auto-repeat do not affect sending; Ctrl+Alt+Shift+R both sends and logs |
| ServiceWorker.OccursFrom | spike-caret-extension/service-worker.js:8 | true exactly when the pattern occurs at the given position or later |
| ServiceWorker.Matches | spike-caret-extension/service-worker.js:8 | true exactly when the project address occurs anywhere in the url |
| ServiceWorker.OnUpdated | spike-caret-extension/service-worker.js:6-15 | injects exactly when the status is "complete" and the url is present, non-empty and matches; it then injects spike-content.js alone into the same tab |
| ServiceWorker.Unanchored | spike-caret-extension/service-worker.js:8 | any url containing the project address matches, whatever surrounds it |
| ServiceWorker.SameLengthMatchesOnlyItself | spike-caret-extension/service-worker.js:8 | a url as long as the project address matches only if it is the project address |
| ServiceWorker.DotsAreLiteral | spike-caret-extension/service-worker.js:8 | another character in place of an escaped dot does not match |

## Left out

- Hardware: motors, the motor pair, the sensors, the light, the light matrix and sound.
  They appear as readings passed in and as commands emitted, except for the effects
  the lines below name as not emitted.
- Pairing: the loop traces of `GettingStarted` and `LambdaTest` start after the pairing
  call.
- HandWave.Apply: emits only the wave's stop. The power light set to the counted colour
  (`Python/hand_wave.py:43`, `58`, `70`) and the 100 ms sleep that ends every task body
  (lines 50, 62, 74, 97) are not emitted, because `Robot.Command` has no light command and
  the interleaving of bodies is already the input. The pairing and the start of the pair
  in `main` (lines 21, 102) precede every body and are not part of `HandWave.Run`'s trace.
- EducationalLineFollower.Follow: the 50 ms sleep after each step of
  `demonstrate_control` (`Python/educational_line_follower.py:72`) is not emitted, so
  `EducationalLineFollower.Demonstrate` issues the steps' motor commands and the final stop
  only.
- LineCounter.RunLoop: reports the stop decision, the iterations run and the tallies; it
  emits no commands. The opening move at velocity 220, the result display and the 100 ms
  sleep of each iteration are not modelled.
- The cooperative scheduler (`runloop.run`, `until`, `sleep`, `sleep_ms`).
  - A `runloop.until` wait is one `WaitUntil` command.
  - In the hand-wave script, the order in which task bodies run is an input: a run is any
    sequence of whole loop bodies.
  - Sleeps are emitted as commands without any notion of time, except the ones named
    above for the educational follower, the hand-wave tasks and the line counter.
- Printing and format strings: console output, and the centimetre and inch display
  conversions.
- Floating point: gains are integers, and the defaults 5.0 and 7 are integral. Because of
  that, Python's truncating `int()` of a speed is the identity. 25.4 mm per inch is the
  rational 254/10, truncated toward zero.
- Activities 1, 2 and 3 of the educational script (`Python/educational_line_follower.py:165-225`):
  they print worked examples and then pause 2000 ms each (lines 185, 205, 225). They touch
  no follower and no motor. Activity 3's strength labels are `EducationalLineFollower.KpLabel`.
  The script's `main` (lines 228-259) is not modelled as one trace. It runs the activities,
  pairs the motors, builds the default follower, and runs `demonstrate_control`. Then it runs
  `compare_different_forces`, which overwrites the follower's gain with 2, 5 and 10, pausing
  1000 ms after each, and never drives a motor (`EducationalLineFollower.CompareDifferentForces`).
  Nothing reads the follower afterwards. The forces that comparison prints are not modelled.
- Colour code of `color.RED`: the hub library is not part of this model, and the red
  colour is taken as code 9, the value the repository's own scripts use.
- SpikeContent.Lower: lower-cases ASCII letters only, while JavaScript's `toLowerCase`
  also folds other scripts. The comparison target "textarea" is ASCII.
- The Chrome and DOM surroundings.
  - `postMessage`, console logging, `executeScript` and its `try`/`catch` are not
    modelled.
  - Editor objects are inputs. A probe that throws, or yields a value that is not a
    number, gives no answer.
  - Numbers are integers.
- `utils.js` (page UI, clipboard and network plumbing), `Python/Dancer.py`,
  `Python/help.py` and `testit.py` (motor sequences without decision logic).
- `Python/Christmas Tree Light Detector.py` (the blinking-light classifier) and
  `Python/Maze Runner.py` are not part of this model.

## Findings

| source | as written | input that shows it | evidently intended | confidence | as-written member | corrected member |
|---|---|---|---|---|---|---|
| Python/line_counter.py:117 | the robot stops when the distance is not `None` and below 10 | a reading of -1, which the distance sensor returns when it sees no object, satisfies both conditions and stops the robot in open space | like every other proximity test in the repository (`Python/hand_wave.py:86`, `sensor_four_square.py:12`, `Python/lambda_test.py:20`), the -1 sentinel fails closed | medium, not executed | LineCounter.StopAsWritten (exhibited by LineCounter.StopAsWrittenFiresWithoutObject and LineCounter.OpenSpaceStopsAsWritten) | LineCounter.StopCorrected (used by LineCounter.RunCorrected; LineCounter.StopTestsDiffer) |
| Python/line_counter.py:116-117 | the comment promises a stop closer than 10 cm; the test compares with 10 | an object 50 mm away: the distance sensor reports millimetres (`Python/hand_wave.py:81`), so 50 is not below 10 and the robot drives on | stop below 100 mm, the 10 cm of the comment | medium, not executed | LineCounter.StopAsWritten (exhibited by LineCounter.StopAsWrittenMissesFiveCentimetres) | LineCounter.StopCorrected (used by LineCounter.RunCorrected; LineCounter.StopTestsDiffer) |
| Python/line_counter.py:109-111 | the three checks of one poll each read the sensor and store their reading, and each compares with the reading the previous check stored | a yellow line under the sensor for three polls: the red check stores 7 before the yellow check compares with it, so the yellow tally stays 0; likewise blue after the yellow check | each colour counts once per line crossed (line 2: the robot counts the different coloured lines it crosses), every check comparing with the previous poll's colour | high, not executed | LineCounter.Poll (exhibited by LineCounter.SteadyYellowOrBlueNeverCounts and LineCounter.CrossingYellowLine) | LineCounter.PollCorrected (used by LineCounter.RunCorrected; LineCounter.FeedCorrectedCountsRisingEdges) |

=== FILE: educational_line_follower.dfy ===
/** The educational line follower: the same proportional law, with the robot's state
    kept in an object that counts its steps, tracks the largest error and steering force
    seen so far, and explains every tenth step in words. Gains are integers here. */
module EducationalLineFollower {
  import opened Options
  import opened Numbers
  import Robot
  import PController

  datatype Follower = Follower(target: int, speed: int, kp: int, iteration: nat, maxError: nat, maxForce: nat)

  /** A new follower with the given gains: no steps taken and nothing seen yet. */
  function Create(target: int, speed: int, kp: int): (f: Follower)
    ensures f.target == target && f.speed == speed && f.kp == kp
    ensures f.iteration == 0 && f.maxError == 0 && f.maxForce == 0
  {
    Follower(target, speed, kp, 0, 0, 0)
  }

  /** A follower built with the default arguments: target 60, speed 150, gain 5. */
  function Default(): (f: Follower)
    ensures f == Create(60, 150, 5)
  {
    Follower(60, 150, 5, 0, 0, 0)
  }

  function GainsOf(f: Follower): PController.Gains {
    PController.Gains(f.target, f.speed, f.kp)
  }

  /** Which side of the line the robot is on; a zero error reports "RIGHT". */
  function Direction(error: int): (d: string)
    ensures d == "LEFT" || d == "RIGHT"
    ensures d == "LEFT" <==> error > 0
  {
    if error > 0 then "LEFT" else "RIGHT"
  }

  datatype ErrorSize = BigError | MediumError | SmallError

  /** Position of a size on the scale small < medium < big. */
  function Rank(s: ErrorSize): nat {
    match s
    case SmallError => 0
    case MediumError => 1
    case BigError => 2
  }

  /** The error bucket of an explanation, by the error's magnitude. */
  function SizeOf(error: int): (s: ErrorSize)
    ensures s == BigError <==> Abs(error) > 10
    ensures s == MediumError <==> 5 < Abs(error) <= 10
    ensures s == SmallError <==> Abs(error) <= 5
  {
    if Abs(error) > 10 then BigError
    else if Abs(error) > 5 then MediumError
    else SmallError
  }

  /** The bucket depends on the magnitude only, and a larger error is never put in a
      smaller bucket. */
  lemma SizeOfMonotone(e: int, e': int)
    ensures SizeOf(e) == SizeOf(-e)
    ensures Abs(e) <= Abs(e') ==> Rank(SizeOf(e)) <= Rank(SizeOf(e'))
  {
  }

  /** The result line: turning exactly when the force's magnitude exceeds 1. */
  function ResultText(force: int): (t: string)
    ensures t == "Turning toward center" || t == "Going straight"
    ensures t == "Turning toward center" <==> Abs(force) > 1
  {
    if Abs(force) > 1 then "Turning toward center" else "Going straight"
  }

  /** The strength label of a gain in the rubber-band comparison. */
  function KpLabel(kp: int): (strength: string)
    ensures strength == "Weak" <==> kp < 3
    ensures strength == "Medium" <==> 3 <= kp < 8
    ensures strength == "Strong" <==> kp >= 8
  {
    if kp < 3 then "Weak" else if kp < 8 then "Medium" else "Strong"
  }

  /** The labels read in order of strength: a larger gain never gets a weaker label. */
  lemma KpLabelMonotone(kp: int, kp': int)
    requires kp <= kp'
    ensures KpLabel(kp) == "Strong" ==> KpLabel(kp') == "Strong"
    ensures KpLabel(kp) == "Medium" ==> KpLabel(kp') != "Weak"
  {
  }

  /** What one explanation says. */
  datatype Explanation = Explanation(iteration: nat, direction: string, size: ErrorSize, result: string)

  /** `explain_physics` for the step number, error and steering force it is given: the side
      of the line, the error's bucket and whether the robot is turning. */
  function Explain(iteration: nat, error: int, force: int): (e: Explanation)
    ensures e.iteration == iteration
    ensures e.direction == "LEFT" <==> error > 0
    ensures e.size == BigError <==> Abs(error) > 10
    ensures e.size == SmallError <==> Abs(error) <= 5
    ensures e.result == "Turning toward center" <==> Abs(force) > 1
  {
    Explanation(iteration, Direction(error), SizeOf(error), ResultText(force))
  }

  datatype StepResult = StepResult(next: Follower, commands: seq<Robot.Command>, explanation: Option<Explanation>)

  /** One step of `follow_with_physics_explanation`, with the reading as a parameter. */
  function Step(f: Follower, reading: int, showPhysics: bool): (r: StepResult)
    ensures GainsOf(r.next) == GainsOf(f)
    ensures r.next.iteration == f.iteration + 1
    ensures r.commands == PController.MotorCommands(PController.Drive(GainsOf(f), reading))
    ensures var e := PController.Error(GainsOf(f), reading);
      && r.next.maxError >= Abs(e) && r.next.maxError >= f.maxError
      && (r.next.maxError == Abs(e) || r.next.maxError == f.maxError)
    ensures var force := PController.Correction(GainsOf(f), reading);
      && r.next.maxForce >= Abs(force) && r.next.maxForce >= f.maxForce
      && (r.next.maxForce == Abs(force) || r.next.maxForce == f.maxForce)
    ensures r.explanation.Some? <==> showPhysics && f.iteration % 10 == 0
    ensures r.explanation.Some? ==>
      r.explanation.value == Explain(f.iteration, PController.Error(GainsOf(f), reading), PController.Correction(GainsOf(f), reading))
  {
    var error := f.target - reading;
    var force := f.kp * error;
    var wheels := PController.Wheels(f.speed + force, f.speed - force);
    var maxError := if Abs(error) > f.maxError then Abs(error) else f.maxError;
    var maxForce := if Abs(force) > f.maxForce then Abs(force) else f.maxForce;
    var explanation := if showPhysics && f.iteration % 10 == 0 then Some(Explain(f.iteration, error, force)) else None;
    StepResult(
      f.(iteration := f.iteration + 1, maxError := maxError, maxForce := maxForce),
      PController.MotorCommands(wheels),
      explanation)
  }

  /** The multiples of ten among the `n` step numbers starting at `a`, in order. */
  function Multiples(a: nat, n: nat): seq<nat> {
    if n == 0 then []
    else Multiples(a, n - 1) + (if (a + n - 1) % 10 == 0 then [a + n - 1] else [])
  }

  lemma {:induction false} MultiplesSplit(a: nat, m: nat, n: nat)
    ensures Multiples(a, m + n) == Multiples(a, m) + Multiples(a + m, n)
    decreases n
  {
    if n > 0 {
      MultiplesSplit(a, m, n - 1);
    }
  }

  /** Among the ten step numbers from `a`, the one at offset `(10 - a % 10) % 10` is the
      only multiple of ten. */
  lemma MultipleAtOffset(a: nat, k: nat)
    requires k < 10
    ensures (a + k) % 10 == 0 <==> k == (10 - a % 10) % 10
  {
    var q := a / 10;
    var r := a % 10;
    assert a + k == 10 * q + (r + k);
    assert 0 <= r + k < 20;
    if r + k < 10 {
      assert (a + k) % 10 == r + k;
    } else {
      assert a + k == 10 * (q + 1) + (r + k - 10);
      assert (a + k) % 10 == r + k - 10;
    }
  }

  /** Any ten consecutive step numbers hold exactly one multiple of ten. */
  lemma TenConsecutiveHoldOne(a: nat)
    ensures |Multiples(a, 10)| == 1
  {
    var hit := (10 - a % 10) % 10;
    var n := 0;
    while n < 10
      invariant 0 <= n <= 10
      invariant |Multiples(a, n)| == (if hit < n then 1 else 0)
    {
      MultipleAtOffset(a, n);
      n := n + 1;
    }
  }

  /** Ten times as many consecutive steps hold that many multiples of ten. */
  lemma {:induction false} MultiplesOfBlocks(a: nat, k: nat)
    ensures |Multiples(a, 10 * k)| == k
    decreases k
  {
    if k > 0 {
      MultiplesSplit(a, 10 * (k - 1), 10);
      MultiplesOfBlocks(a, k - 1);
      TenConsecutiveHoldOne(a + 10 * (k - 1));
    }
  }

  /** The largest error magnitude over a run of readings; 0 for none. */
  function MaxAbsError(target: int, readings: seq<int>): nat {
    if |readings| == 0 then 0
    else Max(MaxAbsError(target, readings[..|readings| - 1]), Abs(target - readings[|readings| - 1]))
  }

  /** The largest force magnitude over a run of readings; 0 for none. */
  function MaxAbsForce(kp: int, target: int, readings: seq<int>): nat {
    if |readings| == 0 then 0
    else Max(MaxAbsForce(kp, target, readings[..|readings| - 1]), Abs(kp * (target - readings[|readings| - 1])))
  }

  /** The commands are, two per reading and in order, the motor commands of the shared
      law for that reading. */
  predicate DrivesEachStep(g: PController.Gains, readings: seq<int>, commands: seq<Robot.Command>) {
    && |commands| == 2 * |readings|
    && forall i :: 0 <= i < |readings| ==>
      commands[2 * i..2 * i + 2] == PController.MotorCommands(PController.Drive(g, readings[i]))
  }

  /** The commands for all readings but the last, followed by the last one's, drive each
      step. */
  lemma DrivesEachStepAppend(g: PController.Gains, readings: seq<int>, before: seq<Robot.Command>)
    requires |readings| > 0
    requires DrivesEachStep(g, readings[..|readings| - 1], before)
    ensures DrivesEachStep(g, readings, before + PController.MotorCommands(PController.Drive(g, readings[|readings| - 1])))
  {
    var n := |readings|;
    var commands := before + PController.MotorCommands(PController.Drive(g, readings[n - 1]));
    forall i | 0 <= i < n
      ensures commands[2 * i..2 * i + 2] == PController.MotorCommands(PController.Drive(g, readings[i]))
    {
      if i < n - 1 {
        assert readings[..n - 1][i] == readings[i];
        assert commands[2 * i..2 * i + 2] == before[2 * i..2 * i + 2];
      } else {
        assert commands[2 * i..2 * i + 2] == commands[|before|..];
      }
    }
  }

  datatype RunResult = RunResult(next: Follower, commands: seq<Robot.Command>, explained: seq<nat>)

  /** What a run from `f` over `readings` promises: the gains are kept, the step counter
      advances by the number of readings, the commands drive each step, the steps
      explained are exactly the multiples of ten among the step numbers run, and the
      tracked maxima are the running maxima over all readings. */
  predicate Follows(f: Follower, readings: seq<int>, showPhysics: bool, r: RunResult) {
    && GainsOf(r.next) == GainsOf(f)
    && r.next.iteration == f.iteration + |readings|
    && DrivesEachStep(GainsOf(f), readings, r.commands)
    && r.explained == (if showPhysics then Multiples(f.iteration, |readings|) else [])
    && r.next.maxError == Max(f.maxError, MaxAbsError(f.target, readings))
    && r.next.maxForce == Max(f.maxForce, MaxAbsForce(f.kp, f.target, readings))
  }

  /** A run followed by one more step on `last`. */
  function Extend(before: RunResult, last: int, showPhysics: bool): (r: RunResult)
    ensures GainsOf(r.next) == GainsOf(before.next)
    ensures r.next.iteration == before.next.iteration + 1
    ensures r.commands == before.commands + PController.MotorCommands(PController.Drive(GainsOf(before.next), last))
  {
    var step := Step(before.next, last, showPhysics);
    RunResult(step.next, before.commands + step.commands,
      before.explained + (if step.explanation.Some? then [step.explanation.value.iteration] else []))
  }

  /** One more step keeps a run's promises, now over one more reading. */
  lemma ExtendFollows(f: Follower, readings: seq<int>, showPhysics: bool, before: RunResult)
    requires |readings| > 0
    requires Follows(f, readings[..|readings| - 1], showPhysics, before)
    ensures Follows(f, readings, showPhysics, Extend(before, readings[|readings| - 1], showPhysics))
  {
    var n := |readings|;
    var last := readings[n - 1];
    var r := Extend(before, last, showPhysics);
    var step := Step(before.next, last, showPhysics);
    DrivesEachStepAppend(GainsOf(f), readings, before.commands);
    assert r.explained == (if showPhysics then Multiples(f.iteration, n) else []) by {
      assert Multiples(f.iteration, n) == Multiples(f.iteration, n - 1) + (if (f.iteration + n - 1) % 10 == 0 then [f.iteration + n - 1] else []);
      assert step.explanation.Some? ==> step.explanation.value.iteration == f.iteration + (n - 1);
    }
    assert r.next.maxError == Max(f.maxError, MaxAbsError(f.target, readings)) by {
      assert MaxAbsError(f.target, readings) == Max(MaxAbsError(f.target, readings[..n - 1]), Abs(f.target - last));
    }
    assert r.next.maxForce == Max(f.maxForce, MaxAbsForce(f.kp, f.target, readings)) by {
      assert MaxAbsForce(f.kp, f.target, readings) == Max(MaxAbsForce(f.kp, f.target, readings[..n - 1]), Abs(f.kp * (f.target - last)));
    }
  }

  /** Consecutive steps, one per reading, keeping every promise of `Follows`. */
  function Follow(f: Follower, readings: seq<int>, showPhysics: bool): (r: RunResult)
    ensures Follows(f, readings, showPhysics, r)
    ensures |r.commands| == 2 * |readings|
    ensures forall i :: 0 <= i < |readings| ==>
      r.commands[2 * i..2 * i + 2] == PController.MotorCommands(PController.Drive(GainsOf(f), readings[i]))
    decreases |readings|
  {
    if |readings| == 0 then RunResult(f, [], [])
    else
      var before := Follow(f, readings[..|readings| - 1], showPhysics);
      ExtendFollows(f, readings, showPhysics, before);
      Extend(before, readings[|readings| - 1], showPhysics)
  }

  const DEMONSTRATION_STEPS: nat := 100

  /** `demonstrate_control`: 100 steps, then both motors stop. Whatever the step count it
      starts from, exactly ten of its steps are explained when explanations are on, and
      none when they are off. */
  function Demonstrate(f: Follower, readings: seq<int>, showPhysics: bool): (r: RunResult)
    requires |readings| == DEMONSTRATION_STEPS
    ensures r.next.iteration == f.iteration + DEMONSTRATION_STEPS
    ensures |r.explained| == (if showPhysics then 10 else 0)
    ensures |r.commands| == 2 * DEMONSTRATION_STEPS + 2
    ensures r.commands[..2 * DEMONSTRATION_STEPS] == Follow(f, readings, showPhysics).commands
    ensures r.commands[2 * DEMONSTRATION_STEPS..] == PController.StopMotors()
  {
    var run := Follow(f, readings, showPhysics);
    MultiplesOfBlocks(f.iteration, 10);
    run.(commands := run.commands + PController.StopMotors())
  }

  /** The gains `compare_different_forces` tries, in order, and its pause after each. */
  const COMPARED_GAINS: seq<int> := [2, 5, 10]
  const COMPARE_PAUSE_MS: nat := 1000

  /** The loop of `compare_different_forces` over `gains`: each gain in turn overwrites the
      follower's gain, the forces it would give are only printed, and each gain ends with a
      pause. Nothing but the gain changes, and no motor is driven. */
  function TryGains(f: Follower, gains: seq<int>): (r: (Follower, seq<Robot.Command>))
    ensures |gains| == 0 ==> r.0 == f
    ensures |gains| > 0 ==> r.0 == f.(kp := gains[|gains| - 1])
    ensures |r.1| == |gains|
    ensures forall i :: 0 <= i < |r.1| ==> r.1[i] == Robot.SleepMs(COMPARE_PAUSE_MS)
    decreases |gains|
  {
    if |gains| == 0 then (f, [])
    else
      var before := TryGains(f, gains[..|gains| - 1]);
      (before.0.(kp := gains[|gains| - 1]), before.1 + [Robot.SleepMs(COMPARE_PAUSE_MS)])
  }

  /** `compare_different_forces`, run after the demonstration: it leaves the follower's gain
      at 10, keeps its target, speed, step count and maxima, and only pauses three times. */
  function CompareDifferentForces(f: Follower): (r: (Follower, seq<Robot.Command>))
    ensures GainsOf(r.0) == PController.Gains(f.target, f.speed, 10)
    ensures r.0.iteration == f.iteration && r.0.maxError == f.maxError && r.0.maxForce == f.maxForce
    ensures r.1 == [Robot.SleepMs(1000), Robot.SleepMs(1000), Robot.SleepMs(1000)]
  {
    TryGains(f, COMPARED_GAINS)
  }
}

=== FILE: four_square.dfy ===
/** The sensor four-square drive, version with unit constants: drive until the force
    sensor is pressed, back off, turn left, drive until near a wall, turn left, drive
    until pressed, back off, show a face, turn left, then move back and forth until an
    object is near. Each `until` wait is one command; the loop's proximity checks take
    their readings from a sequence. */
module FourSquare {
  import Robot
  import Sensors

  const DEGREES_PER_INCH: int := 53
  /** 25.4 millimetres per inch, kept exact as tenths of a millimetre. */
  const TENTHS_MM_PER_INCH: int := 254

  /** Python's `int()` of a quotient: division truncating toward zero. */
  function TruncDiv(a: int, b: int): (q: int)
    requires b > 0
    ensures a >= 0 ==> q >= 0 && q * b <= a < q * b + b
    ensures a < 0 ==> q <= 0 && q * b - b < a <= q * b
  {
    if a >= 0 then a / b else -((-a) / b)
  }

  /** `int(n * MM_PER_INCH)`: whole millimetres in `n` inches, the fraction dropped toward
      zero. */
  function MmFromInches(n: int): (mm: int)
    ensures n >= 0 ==> 0 <= mm && 10 * mm <= 254 * n < 10 * mm + 10
    ensures n < 0 ==> mm <= 0 && 10 * mm - 10 < 254 * n <= 10 * mm
  {
    TruncDiv(n * TENTHS_MM_PER_INCH, 10)
  }

  /** The step-3 wait stops within 10 inches (254 mm), the step-6 loop within 6 (152 mm). */
  lemma WaitThresholds()
    ensures MmFromInches(10) == 254
    ensures MmFromInches(6) == 152
  {
  }

  /** One back-and-forth pass of step 6: ten inches forward, ten back. */
  const PASS: seq<Robot.Command> := [
    Robot.MoveForDegrees(10 * DEGREES_PER_INCH, 0),
    Robot.MoveForDegrees(-10 * DEGREES_PER_INCH, 0)
  ]

  /** Steps 2 to 6 up to the back-and-forth loop. */
  const APPROACH: seq<Robot.Command> := [
    Robot.Pair,
    Robot.Move(0),
    Robot.WaitUntil(Robot.Pressed),
    Robot.MoveForDegrees(-6 * DEGREES_PER_INCH, 0),
    Robot.SleepMs(2000),
    Robot.LEFT_TURN,
    Robot.Move(0),
    Robot.WaitUntil(Robot.NearWithin(MmFromInches(10))),
    Robot.LEFT_TURN,
    Robot.Move(0),
    Robot.WaitUntil(Robot.Pressed),
    Robot.MoveForDegrees(-4 * DEGREES_PER_INCH, 0),
    Robot.ShowImage(Robot.Angry),
    Robot.SleepMs(2000),
    Robot.LEFT_TURN
  ]

  /** The approach turns left three times, each a quarter turn, never stops, and its
      straight moves net -318 - 212 degrees, the two back-offs of 6 and 4 inches. */
  lemma ApproachShape()
    ensures Robot.CountWhere(APPROACH, Robot.IsLeftTurn) == 3
    ensures forall i :: 0 <= i < |APPROACH| && Robot.IsLeftTurn(APPROACH[i]) ==> APPROACH[i] == Robot.LEFT_TURN
    ensures Robot.Displacement(APPROACH) == -318 - 212
    ensures Robot.Stop !in APPROACH
  {
    ApproachTurns();
    ApproachDisplacement();
  }

  lemma ApproachTurns()
    ensures Robot.CountWhere(APPROACH, Robot.IsLeftTurn) == 3
  {
    var s := APPROACH;
    var k := |s|;
    while k > 0
      invariant 0 <= k <= |s|
      invariant Robot.CountWhere(s[k..], Robot.IsLeftTurn) == (if k <= 5 then 3 else if k <= 8 then 2 else if k <= 14 then 1 else 0)
    {
      k := k - 1;
      Robot.PeelCount(s, k, Robot.IsLeftTurn);
    }
    assert s[0..] == s;
  }

  lemma ApproachDisplacement()
    ensures Robot.Displacement(APPROACH) == -318 - 212
  {
    var s := APPROACH;
    WaitThresholds();
    var k := |s|;
    while k > 0
      invariant 0 <= k <= |s|
      invariant Robot.Displacement(s[k..]) == (if k <= 3 then -530 else if k <= 11 then -212 else 0)
    {
      k := k - 1;
      Robot.PeelDisplacement(s, k);
    }
    assert s[0..] == s;
  }

  /** What the step-6 loop did with the readings it took: the commands it issued, whether
      it has exited, and how many proximity checks it made. */
  datatype LoopRun = LoopRun(trace: seq<Robot.Command>, exited: bool, checks: nat)

  /** `while not is_near(152)`: each check at the top of the loop takes one reading. The
      loop exits at the first near reading, after one full pass per earlier reading; a
      pass nets no displacement. If the readings run out, the loop is still running. */
  function BackAndForth(readings: seq<int>): (r: LoopRun)
    ensures r.exited <==> Sensors.FirstNear(readings, MmFromInches(6)).Some?
    ensures r.exited ==> r.checks == Sensors.FirstNear(readings, MmFromInches(6)).value + 1
    ensures !r.exited ==> r.checks == |readings|
    ensures |r.trace| == 2 * (if r.exited then r.checks - 1 else r.checks)
    ensures forall i :: 0 <= i < |r.trace| ==> r.trace[i] == PASS[i % 2]
    ensures Robot.Displacement(r.trace) == 0
    decreases |readings|
  {
    if |readings| == 0 then LoopRun([], false, 0)
    else if Sensors.IsNear(readings[0], MmFromInches(6)) then LoopRun([], true, 1)
    else
      var rest := BackAndForth(readings[1..]);
      Robot.DisplacementAppend(PASS, rest.trace);
      LoopRun(PASS + rest.trace, rest.exited, rest.checks + 1)
  }

  /** The step-6 loop only moves straight, so it makes no turn and issues no stop. */
  lemma LoopOnlyMovesStraight(readings: seq<int>)
    ensures var t := BackAndForth(readings).trace;
      forall i :: 0 <= i < |t| ==> Robot.IsStraight(t[i])
  {
    var t := BackAndForth(readings).trace;
    forall i | 0 <= i < |t|
      ensures Robot.IsStraight(t[i])
    {
      assert t[i] == PASS[i % 2];
    }
  }

  /** The whole of `main` for the readings the step-6 loop takes. The drive makes exactly
      three left turns, all quarter turns; its net straight movement is just the two
      back-offs of 6 and 4 inches (318 and 212 degrees); and it stops the pair exactly when
      the step-6 loop has exited, and then as its second-last command, just before a 10 ms
      pause. */
  function Main(readings: seq<int>): (trace: seq<Robot.Command>)
    ensures Robot.CountWhere(trace, Robot.IsLeftTurn) == 3
    ensures forall i :: 0 <= i < |trace| && Robot.IsLeftTurn(trace[i]) ==> trace[i] == Robot.LEFT_TURN
    ensures Robot.Displacement(trace) == -318 - 212
    ensures Robot.Stop in trace <==> BackAndForth(readings).exited
    ensures BackAndForth(readings).exited ==> |trace| >= 2 && trace[|trace| - 2..] == [Robot.Stop, Robot.SleepMs(10)]
  {
    var loop := BackAndForth(readings);
    var tail: seq<Robot.Command> := if loop.exited then [Robot.Stop, Robot.SleepMs(10)] else [];
    var rest := loop.trace + tail;
    LoopOnlyMovesStraight(readings);
    ApproachShape();
    assert forall i :: 0 <= i < |rest| ==> !Robot.IsLeftTurn(rest[i]);
    Robot.CountWhereAppend(APPROACH, rest, Robot.IsLeftTurn);
    Robot.CountWhereNone(rest, Robot.IsLeftTurn);
    Robot.DisplacementAppend(APPROACH, rest);
    Robot.DisplacementAppend(loop.trace, tail);
    assert Robot.Displacement([Robot.SleepMs(10)]) == 0;
    assert Robot.Stop !in loop.trace;
    assert APPROACH + loop.trace + tail == APPROACH + rest;
    APPROACH + rest
  }
}

=== FILE: four_square_mr_king.dfy ===
/** The sensor four-square drive, version that numbers its steps on the light matrix.
    Its `is_near` has a fixed 100 mm threshold, and its step-6 loop checks proximity
    twice per pass: at the top, and again after the forward move, breaking out before
    moving back when something is near. */
module FourSquareMrKing {
  import Robot
  import Sensors

  /** `is_near`: a real reading below 100 mm; the "no object" reading never is. */
  function IsNear(dist: int): (near: bool)
    ensures dist == Sensors.NO_DISTANCE ==> !near
    ensures dist != Sensors.NO_DISTANCE ==> (near <==> dist < 100)
    ensures near == Sensors.Near(Sensors.Decode(dist), Sensors.DEFAULT_NEAR_MM)
  {
    dist != -1 && dist < 100
  }

  const FORWARD: Robot.Command := Robot.MoveForDegrees(5 * 53, 0)
  const BACK: Robot.Command := Robot.MoveForDegrees(-5 * 53, 0)
  const PAUSE: Robot.Command := Robot.SleepMs(500)

  /** Steps 2 to 6 up to the back-and-forth loop, step by step. */
  const STEP_2: seq<Robot.Command> := [
    Robot.Pair, Robot.Move(0), Robot.WaitUntil(Robot.Pressed), Robot.Write("2"),
    Robot.MoveForDegrees(-6 * 53, 0), Robot.ShowImage(Robot.Smile), Robot.SleepMs(2000)]
  const STEP_3: seq<Robot.Command> := [
    Robot.Write("3"), Robot.LEFT_TURN, Robot.Move(0), Robot.WaitUntil(Robot.NearWithin(Sensors.DEFAULT_NEAR_MM))]
  const STEP_4: seq<Robot.Command> := [
    Robot.Write("4"), Robot.LEFT_TURN, Robot.Move(0), Robot.WaitUntil(Robot.Pressed), Robot.MoveForDegrees(-4 * 53, 0)]
  const STEP_5: seq<Robot.Command> := [Robot.Write("5"), Robot.ShowImage(Robot.Sad), Robot.SleepMs(2000)]
  const STEP_6: seq<Robot.Command> := [Robot.Write("6"), Robot.LEFT_TURN]

  const APPROACH: seq<Robot.Command> := STEP_2 + STEP_3 + STEP_4 + STEP_5 + STEP_6

  /** What a stretch of commands shows, how often it turns left, whether every left turn
      is a quarter turn, and how far it moves straight. */
  predicate Summary(s: seq<Robot.Command>, writes: seq<string>, turns: nat, displacement: int) {
    && Robot.Writes(s) == writes
    && Robot.CountWhere(s, Robot.IsLeftTurn) == turns
    && (forall i :: 0 <= i < |s| && Robot.IsLeftTurn(s[i]) ==> s[i] == Robot.LEFT_TURN)
    && Robot.Displacement(s) == displacement
    && Robot.Stop !in s
  }

  lemma SummaryAppend(a: seq<Robot.Command>, wa: seq<string>, ta: nat, da: int,
                      b: seq<Robot.Command>, wb: seq<string>, tb: nat, db: int)
    requires Summary(a, wa, ta, da) && Summary(b, wb, tb, db)
    ensures Summary(a + b, wa + wb, ta + tb, da + db)
  {
    Robot.WritesAppend(a, b);
    Robot.CountWhereAppend(a, b, Robot.IsLeftTurn);
    Robot.DisplacementAppend(a, b);
  }

  /** The summary of a stretch, built up one command at a time from its end. */
  lemma SummaryCons(c: Robot.Command, s: seq<Robot.Command>, w: seq<string>, t: nat, d: int)
    requires Summary(s, w, t, d)
    requires Robot.IsLeftTurn(c) ==> c == Robot.LEFT_TURN
    requires c != Robot.Stop
    ensures Summary([c] + s,
      (if c.Write? then [c.text] else []) + w,
      (if Robot.IsLeftTurn(c) then 1 else 0) + t,
      (if Robot.IsStraight(c) then c.degrees else 0) + d)
  {
    assert ([c] + s)[1..] == s;
    forall i | 0 <= i < |[c] + s| && Robot.IsLeftTurn(([c] + s)[i])
      ensures ([c] + s)[i] == Robot.LEFT_TURN
    {
      if i > 0 {
        assert ([c] + s)[i] == s[i - 1];
      }
    }
  }

  lemma EmptySummary() ensures Summary([], [], 0, 0) {
  }

  lemma Step2BackOffSummary() ensures Summary(STEP_2[3..], ["2"], 0, -318) {
    EmptySummary();
    SummaryCons(Robot.SleepMs(2000), [], [], 0, 0);
    SummaryCons(Robot.ShowImage(Robot.Smile), STEP_2[6..], [], 0, 0);
    SummaryCons(Robot.MoveForDegrees(-6 * 53, 0), STEP_2[5..], [], 0, 0);
    SummaryCons(Robot.Write("2"), STEP_2[4..], [], 0, -318);
    assert STEP_2[3..] == [Robot.Write("2")] + STEP_2[4..];
  }

  lemma Step2Summary() ensures Summary(STEP_2, ["2"], 0, -318) {
    Step2BackOffSummary();
    SummaryCons(Robot.WaitUntil(Robot.Pressed), STEP_2[3..], ["2"], 0, -318);
    SummaryCons(Robot.Move(0), STEP_2[2..], ["2"], 0, -318);
    SummaryCons(Robot.Pair, STEP_2[1..], ["2"], 0, -318);
    assert STEP_2 == [Robot.Pair] + STEP_2[1..];
  }

  lemma Step3Summary() ensures Summary(STEP_3, ["3"], 1, 0) {
    EmptySummary();
    SummaryCons(Robot.WaitUntil(Robot.NearWithin(Sensors.DEFAULT_NEAR_MM)), [], [], 0, 0);
    SummaryCons(Robot.Move(0), STEP_3[3..], [], 0, 0);
    SummaryCons(Robot.LEFT_TURN, STEP_3[2..], [], 0, 0);
    SummaryCons(Robot.Write("3"), STEP_3[1..], [], 1, 0);
    assert STEP_3 == [Robot.Write("3")] + STEP_3[1..];
  }

  lemma Step4Summary() ensures Summary(STEP_4, ["4"], 1, -212) {
    EmptySummary();
    SummaryCons(Robot.MoveForDegrees(-4 * 53, 0), [], [], 0, 0);
    SummaryCons(Robot.WaitUntil(Robot.Pressed), STEP_4[4..], [], 0, -212);
    SummaryCons(Robot.Move(0), STEP_4[3..], [], 0, -212);
    SummaryCons(Robot.LEFT_TURN, STEP_4[2..], [], 0, -212);
    SummaryCons(Robot.Write("4"), STEP_4[1..], [], 1, -212);
    assert STEP_4 == [Robot.Write("4")] + STEP_4[1..];
  }

  lemma Step5And6Summary() ensures Summary(STEP_5 + STEP_6, ["5", "6"], 1, 0) {
    EmptySummary();
    SummaryCons(Robot.SleepMs(2000), [], [], 0, 0);
    SummaryCons(Robot.ShowImage(Robot.Sad), STEP_5[2..], [], 0, 0);
    SummaryCons(Robot.Write("5"), STEP_5[1..], [], 0, 0);
    assert STEP_5 == [Robot.Write("5")] + STEP_5[1..];
    SummaryCons(Robot.LEFT_TURN, [], [], 0, 0);
    SummaryCons(Robot.Write("6"), STEP_6[1..], [], 1, 0);
    assert STEP_6 == [Robot.Write("6")] + STEP_6[1..];
    SummaryAppend(STEP_5, ["5"], 0, 0, STEP_6, ["6"], 1, 0);
  }

  /** The approach shows the step numbers 2 to 6 in order, turns left three times, each a
      quarter turn, never stops, and its straight moves net -318 - 212 degrees, the two
      back-offs of 6 and 4 inches. */
  lemma ApproachSummary()
    ensures Summary(APPROACH, ["2", "3", "4", "5", "6"], 3, -318 - 212)
  {
    Step2Summary();
    Step3Summary();
    Step4Summary();
    Step5And6Summary();
    SummaryAppend(STEP_2, ["2"], 0, -318, STEP_3, ["3"], 1, 0);
    SummaryAppend(STEP_2 + STEP_3, ["2", "3"], 1, -318, STEP_4, ["4"], 1, -212);
    SummaryAppend(STEP_2 + STEP_3 + STEP_4, ["2", "3", "4"], 2, -530, STEP_5 + STEP_6, ["5", "6"], 1, 0);
    assert APPROACH == (STEP_2 + STEP_3 + STEP_4) + (STEP_5 + STEP_6);
  }

  /** What the step-6 loop did with the readings it took: the commands it issued, whether
      it has exited, and how many proximity checks it made. */
  datatype LoopRun = LoopRun(trace: seq<Robot.Command>, exited: bool, checks: nat)

  /** The step-6 loop from one of its two proximity checks: the one at the top of the
      loop (`atTop`) or the one after the forward move. Each check takes one reading and
      leaves the loop when it is near; a check that fails makes the next half pass:
      forward after the top check, back after the other. If the readings run out, the
      loop is still running. */
  function Checks(readings: seq<int>, atTop: bool): (r: LoopRun)
    ensures r.exited <==> Sensors.FirstNear(readings, Sensors.DEFAULT_NEAR_MM).Some?
    ensures r.exited ==> r.checks == Sensors.FirstNear(readings, Sensors.DEFAULT_NEAR_MM).value + 1
    ensures !r.exited ==> r.checks == |readings|
    ensures |r.trace| == 2 * HalfPasses(r)
    decreases |readings|
  {
    if |readings| == 0 then LoopRun([], false, 0)
    else if IsNear(readings[0]) then LoopRun([], true, 1)
    else
      var half := if atTop then [FORWARD, PAUSE] else [BACK, PAUSE];
      var rest := Checks(readings[1..], !atTop);
      LoopRun(half + rest.trace, rest.exited, rest.checks + 1)
  }

  /** Half passes made: one for every check that did not leave the loop. */
  function HalfPasses(r: LoopRun): int {
    if r.exited then r.checks - 1 else r.checks
  }

  /** Command `i` of a loop whose first half pass is forward exactly when `atTop`: odd
      positions are pauses, and the moves alternate forward and back. */
  function HalfPassAt(i: nat, atTop: bool): Robot.Command {
    if i % 2 == 1 then PAUSE else if ((i / 2) % 2 == 0) == atTop then FORWARD else BACK
  }

  /** Two commands on, the next half pass goes the other way. */
  lemma HalfPassShift(i: nat, atTop: bool)
    requires i >= 2
    ensures HalfPassAt(i - 2, !atTop) == HalfPassAt(i, atTop)
  {
    assert (i - 2) % 2 == i % 2 && ((i - 2) / 2) % 2 != (i / 2) % 2;
  }

  /** The loop's half passes alternate forward and back, starting with the one its first
      check leads to, each followed by a pause. */
  lemma {:induction false} ChecksAlternate(readings: seq<int>, atTop: bool)
    ensures var r := Checks(readings, atTop);
      forall i :: 0 <= i < |r.trace| ==> r.trace[i] == HalfPassAt(i, atTop)
    decreases |readings|
  {
    if |readings| > 0 && !IsNear(readings[0]) {
      var half := if atTop then [FORWARD, PAUSE] else [BACK, PAUSE];
      var rest := Checks(readings[1..], !atTop);
      ChecksAlternate(readings[1..], !atTop);
      var r := Checks(readings, atTop);
      assert r.trace == half + rest.trace;
      forall i | 2 <= i < |r.trace|
        ensures r.trace[i] == HalfPassAt(i, atTop)
      {
        assert r.trace[i] == rest.trace[i - 2];
        HalfPassShift(i, atTop);
      }
    }
  }

  /** An even number of half passes cancel out; an odd number leaves the loop one half
      pass ahead in the direction of its first. */
  lemma {:induction false} ChecksDisplacement(readings: seq<int>, atTop: bool)
    ensures var r := Checks(readings, atTop);
      Robot.Displacement(r.trace) == (if HalfPasses(r) % 2 == 0 then 0 else if atTop then 265 else -265)
    decreases |readings|
  {
    if |readings| > 0 && !IsNear(readings[0]) {
      var half := if atTop then [FORWARD, PAUSE] else [BACK, PAUSE];
      var rest := Checks(readings[1..], !atTop);
      ChecksDisplacement(readings[1..], !atTop);
      assert half[1..] == [PAUSE];
      Robot.DisplacementAppend(half, rest.trace);
      var r := Checks(readings, atTop);
      assert r.trace == half + rest.trace;
      assert HalfPasses(r) == HalfPasses(rest) + 1;
    }
  }

  /** The loop only moves straight and pauses. Its half passes alternate forward and back
      starting with the one its first check leads to, each followed by a pause, so an even
      number of them cancel out and an odd number leaves it one half pass ahead. */
  lemma ChecksMoves(readings: seq<int>, atTop: bool)
    ensures var r := Checks(readings, atTop);
      && (forall i :: 0 <= i < |r.trace| ==> r.trace[i] == HalfPassAt(i, atTop))
      && (forall i :: 0 <= i < |r.trace| ==> Robot.IsStraight(r.trace[i]) || r.trace[i] == PAUSE)
      && Robot.Displacement(r.trace) == (if HalfPasses(r) % 2 == 0 then 0 else if atTop then 265 else -265)
  {
    ChecksAlternate(readings, atTop);
    ChecksDisplacement(readings, atTop);
  }

  /** The step-6 loop, starting at its top check. A loop that leaves at a top check has
      made whole passes only and is back where it started; one that leaves at the check
      after a forward move has broken out before moving back and is one forward move
      (265 degrees) ahead. */
  function BackAndForth(readings: seq<int>): (r: LoopRun)
    ensures r.exited <==> Sensors.FirstNear(readings, Sensors.DEFAULT_NEAR_MM).Some?
    ensures r.exited ==> r.checks == Sensors.FirstNear(readings, Sensors.DEFAULT_NEAR_MM).value + 1
    ensures r.exited ==> Robot.Displacement(r.trace) == (if r.checks % 2 == 0 then 265 else 0)
    ensures forall i :: 0 <= i < |r.trace| ==> Robot.IsStraight(r.trace[i]) || r.trace[i] == PAUSE
  {
    ChecksMoves(readings, true);
    Checks(readings, true)
  }

  /** The whole of `main` for the readings the step-6 checks take. The light matrix shows
      2, 3, 4, 5, 6 in that order and nothing else; there are exactly three left turns, all
      quarter turns; and the pair is stopped exactly when the loop has exited, as the last
      command. */
  function Main(readings: seq<int>): (trace: seq<Robot.Command>)
    ensures Robot.Writes(trace) == ["2", "3", "4", "5", "6"]
    ensures Robot.CountWhere(trace, Robot.IsLeftTurn) == 3
    ensures forall i :: 0 <= i < |trace| && Robot.IsLeftTurn(trace[i]) ==> trace[i] == Robot.LEFT_TURN
    ensures Robot.Stop in trace <==> BackAndForth(readings).exited
    ensures BackAndForth(readings).exited ==> |trace| > 0 && trace[|trace| - 1] == Robot.Stop
  {
    var loop := BackAndForth(readings);
    var tail: seq<Robot.Command> := if loop.exited then [Robot.Stop] else [];
    var rest := loop.trace + tail;
    ApproachSummary();
    assert forall i :: 0 <= i < |rest| ==> !Robot.IsLeftTurn(rest[i]) && !rest[i].Write?;
    Robot.CountWhereAppend(APPROACH, rest, Robot.IsLeftTurn);
    Robot.CountWhereNone(rest, Robot.IsLeftTurn);
    Robot.WritesAppend(APPROACH, rest);
    Robot.WritesNone(rest);
    assert Robot.Stop !in loop.trace;
    APPROACH + rest
  }
}

=== FILE: getting_started_sensors.dfy ===
/** The getting-started sensor script: drive forward, and on every pass of the loop stop
    the pair if an object is near. */
module GettingStarted {
  import Robot
  import Sensors

  const STOP_PAUSE_MS: nat := 10

  /** Every stop of the pair is followed at once by the 10 ms pause. */
  predicate PausesAfterStops(trace: seq<Robot.Command>) {
    forall i :: 0 <= i < |trace| && trace[i] == Robot.Stop ==>
      i + 1 < |trace| && trace[i + 1] == Robot.SleepMs(STOP_PAUSE_MS)
  }

  /** Traces that pause after their stops still do when joined. */
  lemma PausesAfterStopsAppend(a: seq<Robot.Command>, b: seq<Robot.Command>)
    requires PausesAfterStops(a) && PausesAfterStops(b)
    ensures PausesAfterStops(a + b)
  {
    forall i | 0 <= i < |a + b| && (a + b)[i] == Robot.Stop
      ensures i + 1 < |a + b| && (a + b)[i + 1] == Robot.SleepMs(STOP_PAUSE_MS)
    {
      if i < |a| {
        assert a[i] == Robot.Stop;
      } else {
        assert b[i - |a|] == Robot.Stop;
      }
    }
  }

  /** One pass of `main`'s loop, with the distance `is_near()` reads at its default
      threshold: always start moving, then stop and pause if near. */
  function Pass(distance: int): (trace: seq<Robot.Command>)
    ensures |trace| >= 1 && trace[0] == Robot.Move(0)
    ensures Robot.CountWhere(trace, Robot.IsMoveStart) == 1
    ensures Robot.CountWhere(trace, Robot.IsStop) == (if Sensors.IsNear(distance) then 1 else 0)
    ensures PausesAfterStops(trace)
  {
    if Sensors.IsNear(distance) then
      var t := [Robot.Move(0), Robot.Stop, Robot.SleepMs(STOP_PAUSE_MS)];
      assert t[1..] == [Robot.Stop, Robot.SleepMs(STOP_PAUSE_MS)];
      assert t[1..][1..] == [Robot.SleepMs(STOP_PAUSE_MS)];
      assert t[1..][1..][1..] == [];
      Robot.CountWhereNone(t[1..], Robot.IsMoveStart);
      Robot.CountWhereNone(t[1..][1..], Robot.IsStop);
      assert Robot.CountWhere(t[1..], Robot.IsStop) == 1 + Robot.CountWhere(t[1..][1..], Robot.IsStop);
      t
    else
      [Robot.Move(0)]
  }

  /** The loop over the distances its passes read: every pass issues one move, and the
      pair is stopped once for every near reading and at no other time. */
  function Loop(readings: seq<int>): (trace: seq<Robot.Command>)
    ensures Robot.CountWhere(trace, Robot.IsMoveStart) == |readings|
    ensures Robot.CountWhere(trace, Robot.IsStop) == Sensors.CountNear(readings, Sensors.DEFAULT_NEAR_MM)
    ensures PausesAfterStops(trace)
    decreases |readings|
  {
    if |readings| == 0 then []
    else
      var rest := Loop(readings[1..]);
      Robot.CountWhereAppend(Pass(readings[0]), rest, Robot.IsMoveStart);
      Robot.CountWhereAppend(Pass(readings[0]), rest, Robot.IsStop);
      PausesAfterStopsAppend(Pass(readings[0]), rest);
      Pass(readings[0]) + rest
  }

  /** The loop runs its passes in order: the trace of two runs of readings is the trace of
      the first followed by that of the second, so pass i's move and stop sit in pass i's
      place. */
  lemma {:induction false} LoopAppend(a: seq<int>, b: seq<int>)
    ensures Loop(a + b) == Loop(a) + Loop(b)
    decreases |a|
  {
    if |a| == 0 {
      assert a + b == b;
    } else {
      assert (a + b)[1..] == a[1..] + b;
      LoopAppend(a[1..], b);
    }
  }

  /** A run is its passes, one after another. */
  lemma {:induction false} LoopIsPasses(readings: seq<int>, k: nat)
    requires k < |readings|
    ensures Loop(readings) == Loop(readings[..k]) + Pass(readings[k]) + Loop(readings[k + 1..])
  {
    var before, from := readings[..k], readings[k..];
    assert readings == before + from;
    LoopAppend(before, from);
    assert from[0] == readings[k] && from[1..] == readings[k + 1..];
    assert Loop(from) == Pass(readings[k]) + Loop(readings[k + 1..]);
  }
}

=== FILE: hand_wave.dfy ===
/** The hand-wave colour counter: three colour-watching tasks and one proximity task
    share the counts, the last counted colour and a stop flag.

    Unlike `ColorCounter`, the shared last colour changes only when a task COUNTS, so a
    non-matching reading leaves it alone and only a different target colour re-arms a
    task. Each task's loop body runs without yielding until its sleep, so a run is a
    sequence of whole loop bodies; which task runs next is an input here. */
module HandWave {
  import opened Options
  import Sensors
  import Robot

  /** Distance, in millimetres, below which a hand wave stops everything. */
  const WAVE_MM: int := 50

  datatype State = State(blue: nat, yellow: nat, red: nat, lastColour: Option<int>, shouldStop: bool)

  function Count(s: State, c: Sensors.Colour): nat {
    match c
    case Blue => s.blue
    case Yellow => s.yellow
    case Red => s.red
  }

  /** The last counted colour is none yet, or the code of one of the three colours. */
  predicate ValidLast(s: State) {
    s.lastColour.None? || Sensors.FromCode(s.lastColour.value).Some?
  }

  /** The module-level state before any task runs. */
  function Initial(): (s: State)
    ensures forall c: Sensors.Colour :: Count(s, c) == 0
    ensures s.lastColour == None && !s.shouldStop
    ensures ValidLast(s)
  {
    State(0, 0, 0, None, false)
  }

  /** `s` with the count of `c` one higher and nothing else changed. */
  function Bump(s: State, c: Sensors.Colour): State {
    match c
    case Blue => s.(blue := s.blue + 1)
    case Yellow => s.(yellow := s.yellow + 1)
    case Red => s.(red := s.red + 1)
  }

  /** The counting condition of a colour task: not stopped, the reading is its colour,
      and its colour is not the last one counted. */
  predicate Counts(s: State, watched: Sensors.Colour, reading: int) {
    !s.shouldStop && reading == Sensors.Code(watched) && s.lastColour != Some(Sensors.Code(watched))
  }

  /** One loop body of `check_blue`, `check_yellow` or `check_red`. A stopped task does
      nothing; otherwise the body either counts (its count rises by one and its code
      becomes the last colour) or leaves the state exactly as it was. */
  function CheckStep(s: State, watched: Sensors.Colour, reading: int): (s': State)
    ensures s.shouldStop ==> s' == s
    ensures Counts(s, watched, reading) ==>
      && Count(s', watched) == Count(s, watched) + 1
      && s'.lastColour == Some(Sensors.Code(watched))
      && s'.shouldStop == s.shouldStop
      && forall other: Sensors.Colour :: other != watched ==> Count(s', other) == Count(s, other)
    ensures !Counts(s, watched, reading) ==> s' == s
  {
    if !Counts(s, watched, reading) then s
    else Bump(s, watched).(lastColour := Some(Sensors.Code(watched)))
  }

  /** The stop test of `check_hand_wave`: a real reading below 50 mm. */
  function WaveStops(distance: int): (stop: bool)
    ensures stop <==> Sensors.Near(Sensors.Decode(distance), WAVE_MM)
    ensures distance == Sensors.NO_DISTANCE ==> !stop
  {
    distance != -1 && distance < WAVE_MM
  }

  /** A state together with the commands issued in reaching it. */
  datatype Step = Step(state: State, commands: seq<Robot.Command>)

  /** One loop body of `check_hand_wave`: on a wave, stop the motors and raise the flag. */
  function WaveStep(s: State, distance: int): (r: Step)
    ensures s.shouldStop ==> r == Step(s, [])
    ensures !s.shouldStop && WaveStops(distance) ==> r == Step(s.(shouldStop := true), [Robot.Stop])
    ensures !s.shouldStop && !WaveStops(distance) ==> r == Step(s, [])
  {
    if s.shouldStop || !WaveStops(distance) then Step(s, [])
    else Step(s.(shouldStop := true), [Robot.Stop])
  }

  /** One loop body of one task, with the reading it takes. */
  datatype Event = Check(colour: Sensors.Colour, reading: int) | Wave(distance: int)

  /** Every count is at least what it was, and at most one count rose, by one. */
  predicate GrowsByAtMostOne(s: State, s': State) {
    && s.blue <= s'.blue && s.yellow <= s'.yellow && s.red <= s'.red
    && (s'.blue - s.blue) + (s'.yellow - s.yellow) + (s'.red - s.red) <= 1
  }

  /** One loop body: it raises at most one count by one, keeps the last colour one of the
      three codes, does nothing once stopped, and issues a command only when it is the
      wave that raises the stop flag, and then only `Stop`. */
  function Apply(s: State, e: Event): (r: Step)
    ensures GrowsByAtMostOne(s, r.state)
    ensures ValidLast(s) ==> ValidLast(r.state)
    ensures s.shouldStop ==> r == Step(s, [])
    ensures r.commands == [] ==> r.state.shouldStop == s.shouldStop
    ensures r.commands != [] ==> r.commands == [Robot.Stop] && !s.shouldStop && r.state.shouldStop
  {
    match e
    case Check(c, reading) =>
      var s' := CheckStep(s, c, reading);
      if Counts(s, c, reading) then
        Sensors.CodeRoundTrip(c);
        assert forall other: Sensors.Colour :: other != c ==> Count(s', other) == Count(s, other);
        match c {
          case Blue => assert Count(s', Sensors.Yellow) == s.yellow && Count(s', Sensors.Red) == s.red; Step(s', [])
          case Yellow => assert Count(s', Sensors.Blue) == s.blue && Count(s', Sensors.Red) == s.red; Step(s', [])
          case Red => assert Count(s', Sensors.Blue) == s.blue && Count(s', Sensors.Yellow) == s.yellow; Step(s', [])
        }
      else Step(s', [])
    case Wave(d) => WaveStep(s, d)
  }

  /** Loop bodies run in the given order. Once the stop flag is raised nothing more
      happens; a run stops the motors at most once, and exactly when it raises the stop
      flag. */
  function Run(s: State, events: seq<Event>): (r: Step)
    ensures s.shouldStop ==> r == Step(s, [])
    ensures |r.commands| <= 1
    ensures |r.commands| == 1 <==> !s.shouldStop && r.state.shouldStop
    ensures forall i :: 0 <= i < |r.commands| ==> r.commands[i] == Robot.Stop
    decreases |events|
  {
    if |events| == 0 then Step(s, [])
    else
      var first := Apply(s, events[0]);
      var rest := Run(first.state, events[1..]);
      Step(rest.state, first.commands + rest.commands)
  }

  /** Every state reached from a valid one remembers none, 3, 7 or 9 as the last colour. */
  lemma {:induction false} RunKeepsValidLast(s: State, events: seq<Event>)
    requires ValidLast(s)
    ensures ValidLast(Run(s, events).state)
    ensures var last := Run(s, events).state.lastColour;
      last == None || last == Some(3) || last == Some(7) || last == Some(9)
    decreases |events|
  {
    if |events| > 0 {
      RunKeepsValidLast(Apply(s, events[0]).state, events[1..]);
    }
    var last := Run(s, events).state.lastColour;
    if last.Some? {
      var c := Sensors.FromCode(last.value).value;
      assert Sensors.Code(c) == last.value;
    }
  }

  /** Over a run, no count decreases, and the counts rise in total by at most the
      number of colour checks that ran. */
  lemma {:induction false} RunCountsGrow(s: State, events: seq<Event>)
    ensures var s' := Run(s, events).state;
      && s.blue <= s'.blue && s.yellow <= s'.yellow && s.red <= s'.red
      && (s'.blue - s.blue) + (s'.yellow - s.yellow) + (s'.red - s.red) <= CountChecks(events)
    decreases |events|
  {
    if |events| > 0 {
      RunCountsGrow(Apply(s, events[0]).state, events[1..]);
      if events[0].Wave? {
        assert Apply(s, events[0]).state.blue == s.blue;
        assert Apply(s, events[0]).state.yellow == s.yellow;
        assert Apply(s, events[0]).state.red == s.red;
      }
    }
  }

  function CountChecks(events: seq<Event>): nat {
    if |events| == 0 then 0 else (if events[0].Check? then 1 else 0) + CountChecks(events[1..])
  }

  /** Red, then a non-target colour, then red counts red once: the non-matching reading
      does not re-arm the red task. */
  lemma RedWhiteRedCountsOnce()
    ensures Run(Initial(), [Check(Sensors.Red, 9), Check(Sensors.Red, 10), Check(Sensors.Red, 9)]).state.red == 1
  {
    var s1 := Apply(Initial(), Check(Sensors.Red, 9)).state;
    var s2 := Apply(s1, Check(Sensors.Red, 10)).state;
    assert s2 == s1;
    assert Apply(s2, Check(Sensors.Red, 9)).state == s2;
    assert Run(s2, [Check(Sensors.Red, 9)]).state == s2;
    assert [Check(Sensors.Red, 9), Check(Sensors.Red, 10), Check(Sensors.Red, 9)][1..][1..] == [Check(Sensors.Red, 9)];
  }

  /** Red, then a counted blue, then red counts red twice: only a different counted
      colour re-arms a task. */
  lemma RedBlueRedCountsTwice()
    ensures Run(Initial(), [Check(Sensors.Red, 9), Check(Sensors.Blue, 3), Check(Sensors.Red, 9)]).state.red == 2
  {
    var s1 := Apply(Initial(), Check(Sensors.Red, 9)).state;
    var s2 := Apply(s1, Check(Sensors.Blue, 3)).state;
    assert s2.red == 1 && s2.lastColour == Some(3);
    var s3 := Apply(s2, Check(Sensors.Red, 9)).state;
    assert Run(s2, [Check(Sensors.Red, 9)]).state == s3;
    assert [Check(Sensors.Red, 9), Check(Sensors.Blue, 3), Check(Sensors.Red, 9)][1..][1..] == [Check(Sensors.Red, 9)];
  }
}

=== FILE: lambda_test.dfy ===
/** The lambda test: start moving, wait until an object is near, stop, and do it again,
    for ever. */
module LambdaTest {
  import Robot
  import Sensors

  /** What one `is_near` call yields: the decision, and the value it prints. */
  datatype Probe = Probe(near: bool, printed: int)

  /** `is_near` reads the sensor twice: the first reading decides, the second is only
      printed. The decision is the reference one on the first reading, with a threshold
      of 100 mm unless one is given. */
  function IsNear(decided: int, printed: int, threshold: int := Sensors.DEFAULT_NEAR_MM): (p: Probe)
    ensures decided == Sensors.NO_DISTANCE ==> !p.near
    ensures p.near == Sensors.Near(Sensors.Decode(decided), threshold)
    ensures p.printed == printed
  {
    Probe(decided != -1 && decided < threshold, printed)
  }

  /** The start of a cycle: move, then wait until near. */
  const START: seq<Robot.Command> := [Robot.Move(0), Robot.WaitUntil(Robot.NearWithin(Sensors.DEFAULT_NEAR_MM))]

  /** The end of a cycle, once the wait is over: stop, then pause 10 ms. */
  const FINISH: seq<Robot.Command> := [Robot.Stop, Robot.SleepMs(10)]

  lemma CycleCounts()
    ensures Robot.CountWhere(START, Robot.IsStop) == 0 && Robot.CountWhere(START, Robot.IsMoveStart) == 1
    ensures Robot.CountWhere(FINISH, Robot.IsStop) == 1 && Robot.CountWhere(FINISH, Robot.IsMoveStart) == 0
  {
    assert START[1..] == [Robot.WaitUntil(Robot.NearWithin(Sensors.DEFAULT_NEAR_MM))];
    assert Robot.CountWhere(START[1..], Robot.IsStop) == 0 && Robot.CountWhere(START[1..], Robot.IsMoveStart) == 0;
    assert FINISH[1..] == [Robot.SleepMs(10)];
    assert Robot.CountWhere(FINISH[1..], Robot.IsStop) == 0 && Robot.CountWhere(FINISH[1..], Robot.IsMoveStart) == 0;
  }

  /** A trace of `m` whole cycles followed by a started one: `m` times `START + FINISH`,
      then `START`. */
  predicate CycleShape(trace: seq<Robot.Command>, m: nat) {
    && |trace| == 4 * m + 2
    && trace[4 * m..] == START
    && forall k :: 0 <= k < m ==> trace[4 * k..4 * k + 4] == START + FINISH
  }

  /** One more whole cycle in front keeps the shape. */
  lemma CyclePrepend(rest: seq<Robot.Command>, m: nat)
    requires CycleShape(rest, m)
    ensures CycleShape(START + (FINISH + rest), m + 1)
  {
    var t := START + (FINISH + rest);
    assert t[..4] == START + FINISH;
    assert t[4..] == rest;
    forall k | 1 <= k < m + 1
      ensures t[4 * k..4 * k + 4] == START + FINISH
    {
      assert t[4 * k..4 * k + 4] == rest[4 * (k - 1)..4 * (k - 1) + 4];
    }
    assert t[4 * (m + 1)..] == rest[4 * m..];
  }

  /** The deciding readings `until` sees, one per poll of `is_near()`. Each cycle starts
      the pair moving and waits; the first near reading ends the wait, the pair stops, and
      after a 10 ms pause the next cycle begins. When the readings run out the robot is
      still waiting, so the pair is started once more than it is stopped. */
  function Cycles(readings: seq<int>): (trace: seq<Robot.Command>)
    ensures |trace| >= 2 && trace[..2] == START
    ensures var n := Sensors.CountNear(readings, Sensors.DEFAULT_NEAR_MM);
      && |trace| == 4 * n + 2
      && trace[4 * n..] == START
      && forall k :: 0 <= k < n ==> trace[4 * k..4 * k + 4] == START + FINISH
    ensures Robot.CountWhere(trace, Robot.IsStop) == Sensors.CountNear(readings, Sensors.DEFAULT_NEAR_MM)
    ensures Robot.CountWhere(trace, Robot.IsMoveStart) == Sensors.CountNear(readings, Sensors.DEFAULT_NEAR_MM) + 1
    decreases |readings|
  {
    CycleCounts();
    match Sensors.FirstNear(readings, Sensors.DEFAULT_NEAR_MM)
    case None =>
      Sensors.CountNearNone(readings, Sensors.DEFAULT_NEAR_MM);
      START
    case Some(i) =>
      var rest := Cycles(readings[i + 1..]);
      Sensors.CountNearFromFirst(readings, Sensors.DEFAULT_NEAR_MM);
      Robot.CountWhereAppend(START, FINISH + rest, Robot.IsStop);
      Robot.CountWhereAppend(FINISH, rest, Robot.IsStop);
      Robot.CountWhereAppend(START, FINISH + rest, Robot.IsMoveStart);
      Robot.CountWhereAppend(FINISH, rest, Robot.IsMoveStart);
      var n := Sensors.CountNear(readings, Sensors.DEFAULT_NEAR_MM);
      assert n == Sensors.CountNear(readings[i + 1..], Sensors.DEFAULT_NEAR_MM) + 1;
      CyclePrepend(rest, n - 1);
      START + (FINISH + rest)
  }
}

=== FILE: line_counter.dfy ===
/** The colour line counter: a robot drives forward, counts the red, yellow and blue
    lines it crosses, and stops when an object is close.

    `ColorCounter` remembers the last colour read by EVERY call, whether or not that
    call counted; a tally rises only on a call whose reading is its target colour while
    the previous call's reading was not. */
module LineCounter {
  import opened Options
  import Sensors

  const RED_COLOR: int := Sensors.Code(Sensors.Red)
  const YELLOW_COLOR: int := Sensors.Code(Sensors.Yellow)
  const BLUE_COLOR: int := Sensors.Code(Sensors.Blue)

  /** Distance below which `main` stops the robot, as the sensor reports it (millimetres). */
  const STOP_DISTANCE: int := 10

  /** The 10 cm that the comment on `main`'s stop test names, in the sensor's millimetres. */
  const INTENDED_STOP_DISTANCE: int := 100

  datatype Counter = Counter(red: nat, yellow: nat, blue: nat, lastSeen: Option<int>)

  /** The colour names `look_for_color` has a tally for. */
  predicate KnownName(name: string) {
    name == "red" || name == "yellow" || name == "blue"
  }

  function Tally(c: Counter, name: string): nat
    requires KnownName(name)
  {
    if name == "red" then c.red else if name == "yellow" then c.yellow else c.blue
  }

  /** A new counter: every tally zero and no colour seen yet. */
  function Fresh(): (c: Counter)
    ensures forall name | KnownName(name) :: Tally(c, name) == 0
    ensures c.lastSeen == None
  {
    Counter(0, 0, 0, None)
  }

  /** The counting condition of one call: the reading is the target colour and the
      previous call's reading was not. */
  predicate Rises(c: Counter, target: int, reading: int) {
    reading == target && c.lastSeen != Some(target)
  }

  /** One call of `look_for_color` with the sensor's reading as a parameter. Exactly the
      named tally rises by one when the call counts; a name without a tally changes no
      tally; the reading is remembered on every call. */
  function LookForColor(c: Counter, target: int, name: string, reading: int): (c': Counter)
    ensures c'.lastSeen == Some(reading)
    ensures forall n | KnownName(n) ::
      Tally(c', n) == Tally(c, n) + (if n == name && Rises(c, target, reading) then 1 else 0)
  {
    var counted :=
      if !Rises(c, target, reading) then c
      else if name == "red" then c.(red := c.red + 1)
      else if name == "yellow" then c.(yellow := c.yellow + 1)
      else if name == "blue" then c.(blue := c.blue + 1)
      else c;
    counted.(lastSeen := Some(reading))
  }

  /** An unrecognised colour name leaves every tally as it was. */
  lemma UnknownNameCountsNothing(c: Counter, target: int, name: string, reading: int)
    requires !KnownName(name)
    ensures var c' := LookForColor(c, target, name, reading);
      c'.red == c.red && c'.yellow == c.yellow && c'.blue == c.blue
  {
    var c' := LookForColor(c, target, name, reading);
    assert Tally(c', "red") == Tally(c, "red");
    assert Tally(c', "yellow") == Tally(c, "yellow");
    assert Tally(c', "blue") == Tally(c, "blue");
  }

  /** Repeated calls for one target colour and name, one per reading. */
  function Feed(c: Counter, target: int, name: string, readings: seq<int>): (c': Counter)
    ensures c'.lastSeen == Prev(c.lastSeen, readings, |readings|)
    decreases |readings|
  {
    if |readings| == 0 then c
    else LookForColor(Feed(c, target, name, readings[..|readings| - 1]), target, name, readings[|readings| - 1])
  }

  /** The remembered colour just before reading `i`: the initial one, or reading `i - 1`. */
  function Prev(last0: Option<int>, readings: seq<int>, i: nat): Option<int>
    requires i <= |readings|
  {
    if i == 0 then last0 else Some(readings[i - 1])
  }

  /** Reading `i` is a rising edge into the target colour. */
  predicate IsRise(last0: Option<int>, target: int, readings: seq<int>, i: nat)
    requires i < |readings|
  {
    readings[i] == target && Prev(last0, readings, i) != Some(target)
  }

  /** Number of rising edges into the target colour among the first `n` readings. */
  function CountRises(last0: Option<int>, target: int, readings: seq<int>, n: nat): nat
    requires n <= |readings|
  {
    if n == 0 then 0
    else CountRises(last0, target, readings, n - 1) + (if IsRise(last0, target, readings, n - 1) then 1 else 0)
  }

  lemma {:induction false} CountRisesPrefix(last0: Option<int>, target: int, readings: seq<int>, k: nat, n: nat)
    requires n <= k <= |readings|
    ensures CountRises(last0, target, readings[..k], n) == CountRises(last0, target, readings, n)
    decreases n
  {
    if n > 0 {
      CountRisesPrefix(last0, target, readings, k, n - 1);
      assert readings[..k][n - 1] == readings[n - 1];
      if n >= 2 {
        assert readings[..k][n - 2] == readings[n - 2];
      }
    }
  }

  /** Feeding readings to one call site raises its tally by exactly the number of
      rising edges into its target colour. */
  lemma {:induction false} FeedCountsRisingEdges(c: Counter, target: int, name: string, readings: seq<int>)
    requires KnownName(name)
    ensures Tally(Feed(c, target, name, readings), name) == Tally(c, name) + CountRises(c.lastSeen, target, readings, |readings|)
    decreases |readings|
  {
    if |readings| > 0 {
      var n := |readings|;
      var p := readings[..n - 1];
      FeedCountsRisingEdges(c, target, name, p);
      CountRisesPrefix(c.lastSeen, target, readings, n - 1, n - 1);
      assert Feed(c, target, name, p).lastSeen == Prev(c.lastSeen, readings, n - 1);
    }
  }

  /** Red, red, red, blue, red against the red target counts red exactly twice. */
  lemma RedRedRedBlueRed()
    ensures Feed(Fresh(), RED_COLOR, "red", [9, 9, 9, 3, 9]).red == 2
  {
    var rs := [9, 9, 9, 3, 9];
    FeedCountsRisingEdges(Fresh(), RED_COLOR, "red", rs);
    assert !IsRise(None, RED_COLOR, rs, 1) && !IsRise(None, RED_COLOR, rs, 2);
    assert CountRises(None, RED_COLOR, rs, 5) == 2;
  }

  /** Red, another colour, red counts red twice: unlike the hand-wave tasks, the
      non-matching reading in between re-arms the counter. */
  lemma RedOtherRedCountsTwice()
    ensures Feed(Fresh(), RED_COLOR, "red", [9, 10, 9]).red == 2
  {
    var rs := [9, 10, 9];
    FeedCountsRisingEdges(Fresh(), RED_COLOR, "red", rs);
    assert IsRise(None, RED_COLOR, rs, 2);
    assert CountRises(None, RED_COLOR, rs, 3) == 2;
  }

  /** One poll of `main`: the red, yellow and blue checks in that order, each with its own
      reading. Every check compares its reading with the one the check before it stored, so
      yellow counts only when the red check's reading was not yellow, and blue only when the
      yellow check's reading was not blue. */
  function Poll(c: Counter, red: int, yellow: int, blue: int): (c': Counter)
    ensures c'.red == c.red + (if Rises(c, RED_COLOR, red) then 1 else 0)
    ensures c'.yellow == c.yellow + (if yellow == YELLOW_COLOR && red != YELLOW_COLOR then 1 else 0)
    ensures c'.blue == c.blue + (if blue == BLUE_COLOR && yellow != BLUE_COLOR then 1 else 0)
    ensures c'.lastSeen == Some(blue)
  {
    var afterRed := LookForColor(c, RED_COLOR, "red", red);
    var afterYellow := LookForColor(afterRed, YELLOW_COLOR, "yellow", yellow);
    var c' := LookForColor(afterYellow, BLUE_COLOR, "blue", blue);
    assert Tally(c', "red") == Tally(afterYellow, "red") == Tally(afterRed, "red");
    assert Tally(c', "yellow") == Tally(afterYellow, "yellow") && Tally(afterRed, "yellow") == Tally(c, "yellow");
    assert Tally(afterYellow, "blue") == Tally(afterRed, "blue") == Tally(c, "blue");
    c'
  }

  /** `k` polls during which the colour sensor reads the same colour. */
  function SteadyPolls(c: Counter, reading: int, k: nat): Counter
  {
    if k == 0 then c else Poll(SteadyPolls(c, reading, k - 1), reading, reading, reading)
  }

  /** A second poll on an unchanged reading changes nothing. */
  lemma PollSteadyIdempotent(c: Counter, reading: int)
    ensures var once := Poll(c, reading, reading, reading);
      Poll(once, reading, reading, reading) == once
  {
  }

  /** However many polls see the same colour, each tally rises at most once, and the
      state after them is the state after the first. */
  lemma {:induction false} SteadyPollsCountAtMostOnce(c: Counter, reading: int, k: nat)
    requires k >= 1
    ensures SteadyPolls(c, reading, k) == Poll(c, reading, reading, reading)
    ensures var c' := SteadyPolls(c, reading, k);
      c.red <= c'.red <= c.red + 1 && c.yellow <= c'.yellow <= c.yellow + 1 && c.blue <= c'.blue <= c.blue + 1
  {
    if k > 1 {
      SteadyPollsCountAtMostOnce(c, reading, k - 1);
      PollSteadyIdempotent(c, reading);
    }
  }

  /** While the robot stands on a yellow line no poll counts it, and likewise for blue:
      the check before has already stored the colour the check compares with. */
  lemma {:induction false} SteadyYellowOrBlueNeverCounts(c: Counter, k: nat)
    ensures SteadyPolls(c, YELLOW_COLOR, k).yellow == c.yellow
    ensures SteadyPolls(c, BLUE_COLOR, k).blue == c.blue
  {
    if k > 0 {
      SteadyYellowOrBlueNeverCounts(c, k - 1);
    }
  }

  /** The poll with every check comparing its reading against the colour stored by the
      previous poll, so that a colour counts on the first poll that reads it. */
  function PollCorrected(c: Counter, red: int, yellow: int, blue: int): (c': Counter)
    ensures c'.red == c.red + (if Rises(c, RED_COLOR, red) then 1 else 0)
    ensures c'.yellow == c.yellow + (if Rises(c, YELLOW_COLOR, yellow) then 1 else 0)
    ensures c'.blue == c.blue + (if Rises(c, BLUE_COLOR, blue) then 1 else 0)
    ensures c'.lastSeen == Some(blue)
  {
    var afterRed := LookForColor(c, RED_COLOR, "red", red).(lastSeen := c.lastSeen);
    var afterYellow := LookForColor(afterRed, YELLOW_COLOR, "yellow", yellow).(lastSeen := c.lastSeen);
    var c' := LookForColor(afterYellow, BLUE_COLOR, "blue", blue);
    assert Tally(c', "red") == Tally(afterYellow, "red") == Tally(afterRed, "red");
    assert Tally(c', "yellow") == Tally(afterYellow, "yellow") && Tally(afterRed, "yellow") == Tally(c, "yellow");
    assert Tally(afterYellow, "blue") == Tally(afterRed, "blue") == Tally(c, "blue");
    c'
  }

  /** Corrected polls, one colour reading per poll seen by all three checks. */
  function FeedCorrected(c: Counter, readings: seq<int>): (c': Counter)
    ensures c'.lastSeen == Prev(c.lastSeen, readings, |readings|)
    decreases |readings|
  {
    if |readings| == 0 then c
    else
      var r := readings[|readings| - 1];
      PollCorrected(FeedCorrected(c, readings[..|readings| - 1]), r, r, r)
  }

  /** With the corrected poll every tally rises by exactly the number of rising edges into
      its colour among the readings. */
  lemma {:induction false} FeedCorrectedCountsRisingEdges(c: Counter, readings: seq<int>)
    ensures var c' := FeedCorrected(c, readings);
      && c'.red == c.red + CountRises(c.lastSeen, RED_COLOR, readings, |readings|)
      && c'.yellow == c.yellow + CountRises(c.lastSeen, YELLOW_COLOR, readings, |readings|)
      && c'.blue == c.blue + CountRises(c.lastSeen, BLUE_COLOR, readings, |readings|)
    decreases |readings|
  {
    if |readings| > 0 {
      var n := |readings|;
      var p := readings[..n - 1];
      FeedCorrectedCountsRisingEdges(c, p);
      CountRisesPrefix(c.lastSeen, RED_COLOR, readings, n - 1, n - 1);
      CountRisesPrefix(c.lastSeen, YELLOW_COLOR, readings, n - 1, n - 1);
      CountRisesPrefix(c.lastSeen, BLUE_COLOR, readings, n - 1, n - 1);
      assert FeedCorrected(c, p).lastSeen == Prev(c.lastSeen, readings, n - 1);
    }
  }

  /** Crossing a yellow line that stays under the sensor for three polls: as written the
      yellow tally stays zero, corrected it is one. */
  lemma CrossingYellowLine()
    ensures SteadyPolls(Fresh(), YELLOW_COLOR, 3).yellow == 0
    ensures FeedCorrected(Fresh(), [YELLOW_COLOR, YELLOW_COLOR, YELLOW_COLOR]).yellow == 1
  {
    SteadyYellowOrBlueNeverCounts(Fresh(), 3);
    var rs := [YELLOW_COLOR, YELLOW_COLOR, YELLOW_COLOR];
    FeedCorrectedCountsRisingEdges(Fresh(), rs);
    assert IsRise(None, YELLOW_COLOR, rs, 0);
    assert !IsRise(None, YELLOW_COLOR, rs, 1) && !IsRise(None, YELLOW_COLOR, rs, 2);
    assert CountRises(None, YELLOW_COLOR, rs, 1) == 1;
    assert CountRises(None, YELLOW_COLOR, rs, 2) == 1;
  }

  /** The stop test of `main` as written: a reading that is not None and below 10. */
  function StopAsWritten(distance: Option<int>): (stop: bool)
    ensures stop <==> distance.Some? && distance.value < STOP_DISTANCE
  {
    match distance
    case None => false
    case Some(d) => d < STOP_DISTANCE
  }

  /** As written, the distance sensor's "no object" reading stops the robot. */
  lemma StopAsWrittenFiresWithoutObject()
    ensures StopAsWritten(Some(Sensors.NO_DISTANCE))
    ensures !Sensors.Near(Sensors.Decode(Sensors.NO_DISTANCE), STOP_DISTANCE)
  {
  }

  /** As written, an object 5 cm away, closer than the 10 cm the comment names, does not
      stop the robot: the sensor reports millimetres. */
  lemma StopAsWrittenMissesFiveCentimetres()
    ensures !StopAsWritten(Some(50))
    ensures Sensors.Near(Sensors.Decode(50), INTENDED_STOP_DISTANCE)
  {
  }

  /** The stop test corrected twice: the sentinel fails closed, as every other proximity
      test of the repository does, and the threshold is 10 cm in the sensor's millimetres. */
  function StopCorrected(distance: Option<int>): (stop: bool)
    ensures stop ==> distance != Some(Sensors.NO_DISTANCE)
    ensures stop <==> distance.Some? && Sensors.Near(Sensors.Decode(distance.value), INTENDED_STOP_DISTANCE)
  {
    distance.Some? && Sensors.IsNear(distance.value, INTENDED_STOP_DISTANCE)
  }

  /** The two stop tests differ exactly on the "no object" reading and on distances from
      10 mm up to but excluding 10 cm. */
  lemma StopTestsDiffer(distance: Option<int>)
    ensures StopAsWritten(distance) != StopCorrected(distance) <==>
      distance == Some(Sensors.NO_DISTANCE) || (distance.Some? && STOP_DISTANCE <= distance.value < INTENDED_STOP_DISTANCE)
  {
  }

  /** The sensor readings of one iteration of `main`'s loop: one colour read per check,
      then one distance read. */
  datatype Sample = Sample(red: int, yellow: int, blue: int, distance: Option<int>)

  /** How `main` ends: the counter whose tallies are shown, whether the stop branch ran,
      and how many iterations ran. */
  datatype Outcome = Outcome(counter: Counter, stopped: bool, polls: nat)

  /** One iteration's three checks, as written or corrected. */
  function PollSample(corrected: bool, c: Counter, s: Sample): Counter {
    if corrected then PollCorrected(c, s.red, s.yellow, s.blue) else Poll(c, s.red, s.yellow, s.blue)
  }

  /** One iteration's stop test, as written or corrected. */
  predicate Stops(corrected: bool, distance: Option<int>) {
    if corrected then StopCorrected(distance) else StopAsWritten(distance)
  }

  /** Counter after polling every sample of the sequence. */
  function PollAll(corrected: bool, c: Counter, samples: seq<Sample>): Counter
    decreases |samples|
  {
    if |samples| == 0 then c else PollAll(corrected, PollSample(corrected, c, samples[0]), samples[1..])
  }

  /** `main`'s loop over the readings of its iterations. The loop ends at the first
      iteration whose distance stops it, after that iteration's three checks; the tallies
      shown are those of the polls run. */
  function RunLoop(corrected: bool, c: Counter, samples: seq<Sample>): (o: Outcome)
    ensures o.polls <= |samples|
    ensures o.stopped ==> 1 <= o.polls && Stops(corrected, samples[o.polls - 1].distance)
    ensures forall j :: 0 <= j < o.polls - (if o.stopped then 1 else 0) ==> !Stops(corrected, samples[j].distance)
    ensures !o.stopped ==> o.polls == |samples|
    ensures o.counter == PollAll(corrected, c, samples[..o.polls])
    decreases |samples|
  {
    if |samples| == 0 then Outcome(c, false, 0)
    else
      var c' := PollSample(corrected, c, samples[0]);
      assert PollAll(corrected, c, samples[..1]) == PollAll(corrected, c', samples[1..1]);
      if Stops(corrected, samples[0].distance) then Outcome(c', true, 1)
      else
        var o := RunLoop(corrected, c', samples[1..]);
        assert samples[..o.polls + 1][1..] == samples[1..][..o.polls];
        o.(polls := o.polls + 1)
  }

  /** `main` as written: it stops at the first iteration whose distance is not None and
      below 10, the "no object" reading included. */
  function Run(c: Counter, samples: seq<Sample>): (o: Outcome)
    ensures o.polls <= |samples|
    ensures o.stopped ==> 1 <= o.polls && StopAsWritten(samples[o.polls - 1].distance)
    ensures forall j :: 0 <= j < o.polls - (if o.stopped then 1 else 0) ==> !StopAsWritten(samples[j].distance)
    ensures !o.stopped ==> o.polls == |samples|
    ensures o.counter == PollAll(false, c, samples[..o.polls])
  {
    RunLoop(false, c, samples)
  }

  /** `main` with the corrected poll and stop test: it stops at the first iteration that
      sees an object closer than 10 cm. */
  function RunCorrected(c: Counter, samples: seq<Sample>): (o: Outcome)
    ensures o.polls <= |samples|
    ensures o.stopped ==> 1 <= o.polls && StopCorrected(samples[o.polls - 1].distance)
    ensures forall j :: 0 <= j < o.polls - (if o.stopped then 1 else 0) ==> !StopCorrected(samples[j].distance)
    ensures !o.stopped ==> o.polls == |samples|
    ensures o.counter == PollAll(true, c, samples[..o.polls])
  {
    RunLoop(true, c, samples)
  }

  /** In open space, where the distance sensor reports no object, the loop as written stops
      after its first iteration; the corrected loop keeps going. */
  lemma OpenSpaceStopsAsWritten()
    ensures var open := Sample(0, 0, 0, Some(Sensors.NO_DISTANCE));
      var o := Run(Fresh(), [open, open]);
      o.stopped && o.polls == 1
    ensures var open := Sample(0, 0, 0, Some(Sensors.NO_DISTANCE));
      var o := RunCorrected(Fresh(), [open, open]);
      !o.stopped && o.polls == 2
  {
  }
}

=== FILE: line_follower.dfy ===
/** The fixed-length line follower: 300 proportional-control steps on the reflected
    light, then both drive motors stop. */
module LineFollower {
  import Robot
  import PController

  const TARGET_LIGHT: int := 60
  const SPEED: int := 180
  const KP: int := 7
  const ITERATIONS: nat := 300

  const GAINS: PController.Gains := PController.Gains(TARGET_LIGHT, SPEED, KP)

  /** For every reflection percentage, the left speed lies in [-100, 600] and the right
      speed in [-240, 460]; both ends are reached, so nothing clamps them. */
  lemma SpeedBounds(reading: int)
    requires 0 <= reading <= 100
    ensures -100 <= PController.Drive(GAINS, reading).left <= 600
    ensures -240 <= PController.Drive(GAINS, reading).right <= 460
    ensures PController.Drive(GAINS, 0) == PController.Wheels(600, -240)
    ensures PController.Drive(GAINS, 100) == PController.Wheels(-100, 460)
  {
  }

  /** Delay after each step, in milliseconds. */
  const STEP_PAUSE_MS: nat := 100

  /** `main`: the pair is set up, then one reflection reading per iteration, exactly 300
      of them. Each step runs port C at the negated left speed and port D at the right
      speed and then pauses 100 ms; afterwards both motors are stopped. */
  method Run(readings: seq<int>) returns (trace: seq<Robot.Command>)
    requires |readings| == ITERATIONS
    ensures |trace| == 1 + 3 * ITERATIONS + 2
    ensures trace[0] == Robot.Pair
    ensures forall i :: 0 <= i < ITERATIONS ==>
      trace[3 * i + 1] == Robot.RunMotor(Robot.C, -PController.Drive(GAINS, readings[i]).left)
    ensures forall i :: 0 <= i < ITERATIONS ==>
      trace[3 * i + 2] == Robot.RunMotor(Robot.D, PController.Drive(GAINS, readings[i]).right)
    ensures forall i :: 0 <= i < ITERATIONS ==> trace[3 * i + 3] == Robot.SleepMs(STEP_PAUSE_MS)
    ensures trace[1 + 3 * ITERATIONS..] == PController.StopMotors()
  {
    trace := [Robot.Pair];
    var i := 0;
    while i < ITERATIONS
      invariant 0 <= i <= ITERATIONS
      invariant |trace| == 1 + 3 * i
      invariant trace[0] == Robot.Pair
      invariant forall k :: 0 <= k < i ==>
        trace[3 * k + 1] == Robot.RunMotor(Robot.C, -PController.Drive(GAINS, readings[k]).left)
      invariant forall k :: 0 <= k < i ==>
        trace[3 * k + 2] == Robot.RunMotor(Robot.D, PController.Drive(GAINS, readings[k]).right)
      invariant forall k :: 0 <= k < i ==> trace[3 * k + 3] == Robot.SleepMs(STEP_PAUSE_MS)
    {
      trace := trace + PController.MotorCommands(PController.Drive(GAINS, readings[i])) + [Robot.SleepMs(STEP_PAUSE_MS)];
      i := i + 1;
    }
    trace := trace + PController.StopMotors();
  }
}

=== FILE: numbers.dfy ===
/** The integer helpers both languages provide: Python's `abs` and `max`, JavaScript's
    `Math.max`. */
module Numbers {

  function Abs(x: int): nat {
    if x < 0 then -x else x
  }

  function Max(a: int, b: int): int {
    if a < b then b else a
  }
}

=== FILE: options.dfy ===
/** The optional-value type used across the model: Python's `None` versus a value,
    and JavaScript's `undefined`/non-number versus a number. */
module Options {

  datatype Option<+T> = None | Some(value: T) {

    /** The value, or the given default when there is none. */
    function GetOr(default: T): T {
      match this
      case Some(v) => v
      case None => default
    }
  }
}

=== FILE: p_controller.dfy ===
/** The proportional steering law both line followers use: the correction is the gain
    times the distance of the light reading from its target, added to the left wheel's
    speed and taken from the right wheel's. There is no integral or derivative term and
    no clamping of the resulting speeds. */
module PController {
  import Robot

  /** Target reflection, base speed and proportional gain. */
  datatype Gains = Gains(target: int, speed: int, gain: int)

  /** Wheel speeds before the left motor's mounting is taken into account. */
  datatype Wheels = Wheels(left: int, right: int)

  function Error(g: Gains, reading: int): int {
    g.target - reading
  }

  function Correction(g: Gains, reading: int): int {
    g.gain * Error(g, reading)
  }

  /** One control step. The two speeds average to the base speed and differ by twice
      the gain times the error, which together fix them. */
  function Drive(g: Gains, reading: int): (w: Wheels)
    ensures w.left + w.right == 2 * g.speed
    ensures w.left - w.right == 2 * g.gain * (g.target - reading)
  {
    Wheels(g.speed + Correction(g, reading), g.speed - Correction(g, reading))
  }

  /** On target the correction is zero and both wheels run at the base speed. */
  lemma OnTargetDrivesStraight(g: Gains, reading: int)
    requires reading == g.target
    ensures Correction(g, reading) == 0
    ensures Drive(g, reading) == Wheels(g.speed, g.speed)
  {
  }

  /** With a positive gain, a reading below target speeds the left wheel up past the
      right one, and a reading above target does the opposite. */
  lemma SteersTowardTarget(g: Gains, reading: int)
    requires g.gain > 0
    ensures reading < g.target ==> Drive(g, reading).left > Drive(g, reading).right
    ensures reading > g.target ==> Drive(g, reading).left < Drive(g, reading).right
  {
    var w := Drive(g, reading);
    if reading < g.target {
      assert g.gain * (g.target - reading) > 0;
    } else if reading > g.target {
      assert g.gain * (reading - g.target) > 0;
    }
  }

  /** The speed at which a run command turns its wheel forward: the left motor (port C)
      is mounted reversed, so its wheel goes forward at the negated motor velocity. */
  function ForwardSpeed(cmd: Robot.Command): int
    requires cmd.RunMotor?
  {
    if cmd.port == Robot.C then -cmd.velocity else cmd.velocity
  }

  /** The motor commands of one step: the left wheel (port C) first, then the right
      (port D), each turning its wheel forward at that wheel's speed. */
  function MotorCommands(w: Wheels): (cmds: seq<Robot.Command>)
    ensures |cmds| == 2 && cmds[0].RunMotor? && cmds[1].RunMotor?
    ensures cmds[0].port == Robot.C && ForwardSpeed(cmds[0]) == w.left
    ensures cmds[1].port == Robot.D && ForwardSpeed(cmds[1]) == w.right
  {
    [Robot.RunMotor(Robot.C, -w.left), Robot.RunMotor(Robot.D, w.right)]
  }

  /** The commands that stop both drive motors, left first. */
  function StopMotors(): seq<Robot.Command> {
    [Robot.StopMotor(Robot.C), Robot.StopMotor(Robot.D)]
  }
}

=== FILE: robot.dfy ===
/** The commands the robot scripts issue to the hub, and functions that read
    properties off a trace of such commands. Hardware calls are not executed
    here: a script's behaviour is the sequence of commands it would issue. */
module Robot {

  /** Hub ports a motor or sensor can be plugged into. */
  datatype Port = A | B | C | D | E | F

  /** The light-matrix images the scripts show. */
  datatype Image = Smile | Sad | Angry

  /** A condition a script waits on with the scheduler's `until`. */
  datatype Condition = Pressed | NearWithin(threshold: int)

  datatype Command =
    | Pair                                     // pair motors C and D as the drive pair
    | Move(steering: int)                      // start the pair moving at a steering bias
    | MoveForDegrees(degrees: int, steering: int)
    | WaitUntil(condition: Condition)
    | SleepMs(ms: nat)
    | Stop                                     // stop the motor pair
    | Write(text: string)                      // write text on the light matrix
    | ShowImage(image: Image)
    | RunMotor(port: Port, velocity: int)      // run one motor continuously
    | StopMotor(port: Port)

  /** A straight relative move: steering 0, so both wheels turn the same number of degrees. */
  predicate IsStraight(c: Command) {
    c.MoveForDegrees? && c.steering == 0
  }

  /** A turn in place to the left: a relative move with full left steering. */
  predicate IsLeftTurn(c: Command) {
    c.MoveForDegrees? && c.steering < 0
  }

  /** A quarter turn to the left, as both four-square scripts make it: 180 wheel degrees
      at full left steering. */
  const LEFT_TURN: Command := MoveForDegrees(180, -100)

  /** A command that starts the pair moving continuously. */
  predicate IsMoveStart(c: Command) {
    c.Move?
  }

  /** A command that stops the pair. */
  predicate IsStop(c: Command) {
    c.Stop?
  }

  /** Net wheel rotation, in degrees, of the straight relative moves of a trace. */
  function Displacement(trace: seq<Command>): int {
    if |trace| == 0 then 0
    else (if IsStraight(trace[0]) then trace[0].degrees else 0) + Displacement(trace[1..])
  }

  /** Number of commands of a trace that satisfy `p`. */
  function CountWhere(trace: seq<Command>, p: Command -> bool): nat {
    if |trace| == 0 then 0
    else (if p(trace[0]) then 1 else 0) + CountWhere(trace[1..], p)
  }

  /** The texts written on the light matrix, in order. */
  function Writes(trace: seq<Command>): seq<string> {
    if |trace| == 0 then []
    else (if trace[0].Write? then [trace[0].text] else []) + Writes(trace[1..])
  }

  lemma {:induction false} DisplacementAppend(a: seq<Command>, b: seq<Command>)
    ensures Displacement(a + b) == Displacement(a) + Displacement(b)
    decreases |a|
  {
    if |a| > 0 {
      assert (a + b)[1..] == a[1..] + b;
      DisplacementAppend(a[1..], b);
    } else {
      assert a + b == b;
    }
  }

  lemma {:induction false} CountWhereAppend(a: seq<Command>, b: seq<Command>, p: Command -> bool)
    ensures CountWhere(a + b, p) == CountWhere(a, p) + CountWhere(b, p)
    decreases |a|
  {
    if |a| > 0 {
      assert (a + b)[1..] == a[1..] + b;
      CountWhereAppend(a[1..], b, p);
    } else {
      assert a + b == b;
    }
  }

  lemma {:induction false} WritesAppend(a: seq<Command>, b: seq<Command>)
    ensures Writes(a + b) == Writes(a) + Writes(b)
    decreases |a|
  {
    if |a| > 0 {
      assert (a + b)[1..] == a[1..] + b;
      WritesAppend(a[1..], b);
    } else {
      assert a + b == b;
    }
  }

  /** A trace with no commands satisfying `p` counts zero of them. */
  lemma {:induction false} CountWhereNone(trace: seq<Command>, p: Command -> bool)
    requires forall i :: 0 <= i < |trace| ==> !p(trace[i])
    ensures CountWhere(trace, p) == 0
    decreases |trace|
  {
    if |trace| > 0 {
      CountWhereNone(trace[1..], p);
    }
  }

  /** A trace with no Write commands writes nothing. */
  lemma {:induction false} WritesNone(trace: seq<Command>)
    requires forall i :: 0 <= i < |trace| ==> !trace[i].Write?
    ensures Writes(trace) == []
    decreases |trace|
  {
    if |trace| > 0 {
      WritesNone(trace[1..]);
    }
  }

  /** Peeling the first command off a suffix of a trace, for each trace function. */
  lemma PeelCount(s: seq<Command>, k: nat, p: Command -> bool)
    requires k < |s|
    ensures CountWhere(s[k..], p) == (if p(s[k]) then 1 else 0) + CountWhere(s[k + 1..], p)
  {
    assert s[k..][1..] == s[k + 1..];
  }

  lemma PeelDisplacement(s: seq<Command>, k: nat)
    requires k < |s|
    ensures Displacement(s[k..]) == (if IsStraight(s[k]) then s[k].degrees else 0) + Displacement(s[k + 1..])
  {
    assert s[k..][1..] == s[k + 1..];
  }

  lemma PeelWrites(s: seq<Command>, k: nat)
    requires k < |s|
    ensures Writes(s[k..]) == (if s[k].Write? then [s[k].text] else []) + Writes(s[k + 1..])
  {
    assert s[k..][1..] == s[k + 1..];
  }
}

=== FILE: sensors.dfy ===
/** Sensor readings shared by the scripts: the distance sensor's millimetre reading with
    its "no object" sentinel, the reference meaning of "near", and the colour sensor's
    codes for the three line colours. */
module Sensors {
  import opened Options

  /** What the distance sensor returns when it detects no object. */
  const NO_DISTANCE: int := -1

  /** Default threshold of every `is_near`, in millimetres (about 4 inches). */
  const DEFAULT_NEAR_MM: int := 100

  /** A distance reading once the sentinel has been separated from real readings. */
  datatype Distance = NoObject | Mm(mm: int)

  function Decode(raw: int): (d: Distance)
    ensures d.NoObject? <==> raw == NO_DISTANCE
    ensures d.Mm? ==> d.mm == raw
  {
    if raw == NO_DISTANCE then NoObject else Mm(raw)
  }

  /** The raw value the sensor reports for a decoded reading; a real reading is never the sentinel. */
  function Encode(d: Distance): (raw: int)
    requires d.Mm? ==> d.mm != NO_DISTANCE
  {
    match d
    case NoObject => NO_DISTANCE
    case Mm(x) => x
  }

  lemma DecodeEncode(d: Distance)
    requires d.Mm? ==> d.mm != NO_DISTANCE
    ensures Decode(Encode(d)) == d
  {
  }

  lemma EncodeDecode(raw: int)
    ensures Encode(Decode(raw)) == raw
  {
  }

  /** The reference meaning of "near": a real reading strictly below the threshold.
      No reading is never near, whatever the threshold. */
  predicate Near(d: Distance, threshold: int) {
    d.Mm? && d.mm < threshold
  }

  /** A raw reading that is near for some threshold is near for every larger one. */
  lemma NearMonotone(raw: int, t: int, t': int)
    requires t <= t'
    requires Near(Decode(raw), t)
    ensures Near(Decode(raw), t')
  {
  }

  /** Index of the first reading that is near, if any: the reading that ends a
      `until`-style wait on a proximity predicate. */
  function FirstNear(readings: seq<int>, threshold: int): (r: Option<nat>)
    ensures r.Some? ==> r.value < |readings| && Near(Decode(readings[r.value]), threshold)
    ensures r.Some? ==> forall j :: 0 <= j < r.value ==> !Near(Decode(readings[j]), threshold)
    ensures r.None? ==> forall j :: 0 <= j < |readings| ==> !Near(Decode(readings[j]), threshold)
    decreases |readings|
  {
    if |readings| == 0 then None
    else if Near(Decode(readings[0]), threshold) then Some(0)
    else match FirstNear(readings[1..], threshold)
      case None => None
      case Some(i) => Some(i + 1)
  }

  /** Number of readings that are near. */
  function CountNear(readings: seq<int>, threshold: int): (n: nat)
    ensures n <= |readings|
    decreases |readings|
  {
    if |readings| == 0 then 0
    else (if Near(Decode(readings[0]), threshold) then 1 else 0) + CountNear(readings[1..], threshold)
  }

  lemma {:induction false} CountNearAppend(a: seq<int>, b: seq<int>, threshold: int)
    ensures CountNear(a + b, threshold) == CountNear(a, threshold) + CountNear(b, threshold)
    decreases |a|
  {
    if |a| > 0 {
      assert (a + b)[1..] == a[1..] + b;
      CountNearAppend(a[1..], b, threshold);
    } else {
      assert a + b == b;
    }
  }

  /** The three line colours and their colour-sensor codes. */
  datatype Colour = Blue | Yellow | Red

  function Code(c: Colour): int {
    match c
    case Blue => 3
    case Yellow => 7
    case Red => 9
  }

  /** The line colour a colour-sensor code stands for, if it stands for one. */
  function FromCode(code: int): (r: Option<Colour>)
    ensures r.Some? ==> Code(r.value) == code
    ensures r.None? ==> forall c: Colour :: Code(c) != code
  {
    if code == 3 then Some(Blue)
    else if code == 7 then Some(Yellow)
    else if code == 9 then Some(Red)
    else None
  }

  /** The colour sensor's code for red, as `color.RED`. */
  const RED: int := Code(Red)

  /** `is_color_red`, with the colour sensor's reading as a parameter. */
  function IsColorRed(code: int): (red: bool)
    ensures red <==> FromCode(code) == Some(Red)
  {
    code == RED
  }

  /** `is_near(distance_threshold=100)` as the four-square and getting-started scripts
      both define it: the "no object" reading is never near, whatever the threshold; any
      other reading is near when strictly below the threshold. */
  function IsNear(distance: int, threshold: int := DEFAULT_NEAR_MM): (near: bool)
    ensures distance == NO_DISTANCE ==> !near
    ensures distance != NO_DISTANCE ==> (near <==> distance < threshold)
    ensures near == Near(Decode(distance), threshold)
  {
    if distance == -1 then false else distance < threshold
  }

  lemma CodeRoundTrip(c: Colour)
    ensures FromCode(Code(c)) == Some(c)
  {
  }

  /** Distinct colours have distinct codes. */
  lemma CodeInjective(c: Colour, c': Colour)
    requires Code(c) == Code(c')
    ensures c == c'
  {
  }

  /** Readings none of which is near count zero near ones. */
  lemma {:induction false} CountNearNone(readings: seq<int>, threshold: int)
    requires forall j :: 0 <= j < |readings| ==> !Near(Decode(readings[j]), threshold)
    ensures CountNear(readings, threshold) == 0
    decreases |readings|
  {
    if |readings| > 0 {
      CountNearNone(readings[1..], threshold);
    }
  }

  /** The near readings are the first one and those after it. */
  lemma CountNearFromFirst(readings: seq<int>, threshold: int)
    requires FirstNear(readings, threshold).Some?
    ensures var i := FirstNear(readings, threshold).value;
      CountNear(readings, threshold) == 1 + CountNear(readings[i + 1..], threshold)
  {
    var i := FirstNear(readings, threshold).value;
    CountNearNone(readings[..i], threshold);
    assert readings == readings[..i] + [readings[i]] + readings[i + 1..];
    CountNearAppend(readings[..i] + [readings[i]], readings[i + 1..], threshold);
    CountNearAppend(readings[..i], [readings[i]], threshold);
  }
}

=== FILE: service_worker.dfy ===
/** The extension's service worker: when a tab finishes loading a SPIKE Prime project
    page, inject the content script into that tab. The page test is a regular expression
    made of literal characters only (its dots and slashes are escaped) and it is not
    anchored, so it holds of any address that contains the project address anywhere. */
module ServiceWorker {
  import opened Options

  const PROJECT_URL: string := "https://spike.legoeducation.com/prime/project"
  const CONTENT_SCRIPT: string := "spike-content.js"

  /** `p` occurs in `s` starting at position `k`. */
  predicate OccursAt(s: string, p: string, k: int) {
    0 <= k && k + |p| <= |s| && s[k..k + |p|] == p
  }

  /** Whether `p` occurs in `s` at position `k` or later. */
  function OccursFrom(s: string, p: string, k: nat): (found: bool)
    requires k <= |s|
    ensures found <==> exists j :: k <= j && OccursAt(s, p, j)
    decreases |s| - k
  {
    if k + |p| > |s| then false
    else if s[k..k + |p|] == p then assert OccursAt(s, p, k); true
    else OccursFrom(s, p, k + 1)
  }

  /** The page test: the project address occurs somewhere in the tab's address. */
  function Matches(url: string): (m: bool)
    ensures m <==> exists k :: OccursAt(url, PROJECT_URL, k)
  {
    OccursFrom(url, PROJECT_URL, 0)
  }

  /** The request to run a content script in a tab. */
  datatype Injection = Injection(tabId: int, files: seq<string>)

  /** The `onUpdated` listener. A tab whose address is unknown (`None`) or empty is never
      injected; neither is one whose status is anything but "complete". Otherwise the
      content script is injected into that same tab exactly when the address matches. */
  function OnUpdated(tabId: int, status: Option<string>, url: Option<string>): (inj: Option<Injection>)
    ensures inj.Some? <==> status == Some("complete") && url.Some? && url.value != "" && Matches(url.value)
    ensures inj.Some? ==> inj.value == Injection(tabId, [CONTENT_SCRIPT])
  {
    if status == Some("complete") && url.Some? && url.value != "" && Matches(url.value)
    then Some(Injection(tabId, [CONTENT_SCRIPT]))
    else None
  }

  /** Matching is unanchored: anything may come before or after the project address. */
  lemma Unanchored(before: string, after: string)
    ensures Matches(before + PROJECT_URL + after)
  {
    var url := before + PROJECT_URL + after;
    assert url[|before|..|before| + |PROJECT_URL|] == PROJECT_URL;
    assert OccursAt(url, PROJECT_URL, |before|);
  }

  /** An address as long as the project address matches only if it is that address. */
  lemma SameLengthMatchesOnlyItself(url: string)
    requires |url| == |PROJECT_URL|
    requires Matches(url)
    ensures url == PROJECT_URL
  {
    var k :| OccursAt(url, PROJECT_URL, k);
    assert k == 0;
    assert url[0..|url|] == url;
  }

  /** The escaped dots are literal: another character where a dot stands does not match. */
  lemma DotsAreLiteral()
    ensures !Matches("https://spikeXlegoeducation.com/prime/project")
    ensures !Matches("https://spike.legoeducationXcom/prime/project")
  {
    var a := "https://spikeXlegoeducation.com/prime/project";
    var b := "https://spike.legoeducationXcom/prime/project";
    assert a[13] != PROJECT_URL[13];
    assert b[27] != PROJECT_URL[27];
    if Matches(a) {
      SameLengthMatchesOnlyItself(a);
    }
    if Matches(b) {
      SameLengthMatchesOnlyItself(b);
    }
  }
}

=== FILE: spike_content.dfy ===
/** The content script injected into a SPIKE Prime project page. It reports the caret's
    0-based column when Ctrl+Alt+R is pressed, asking in turn a Monaco editor, a
    CodeMirror 5 editor, a CodeMirror 6 view and finally the focused textarea; a probe
    that finds nothing, or throws, passes the question to the next one, and 0 is the
    answer when all of them fail. The page is an input: each editor appears only
    through the few values the script reads from it. */
module SpikeContent {
  import opened Options
  import opened Numbers

  /** A Monaco editor, through the column of its position (`None`: no position, or a
      column that is not a number). */
  datatype MonacoEditor = MonacoEditor(column: Option<int>)

  /** `monaco.editor`: the editors it lists (empty when it cannot list them) and the
      focused editor, if any. */
  datatype Monaco = Monaco(editors: seq<MonacoEditor>, focused: Option<MonacoEditor>)

  /** A CodeMirror 6 view: the head of its main selection, and the start offset of the
      line holding that head (`None` when looking the line up throws). */
  datatype View = View(head: Option<int>, lineFrom: Option<int>)

  /** The focused element: its tag name, its text and its selection start (`None` when
      that is not a number). */
  datatype Element = Element(tagName: string, value: string, selectionStart: Option<int>)

  /** Everything the column lookup reads from the page. `codeMirror` holds the cursor
      column of each listed CodeMirror 5 instance (`None` for one without a numeric
      cursor); it is `None` itself when there is no instance list. */
  datatype Page = Page(
    monaco: Option<Monaco>,
    codeMirror: Option<seq<Option<int>>>,
    view: Option<View>,
    cmView: Option<View>,
    active: Option<Element>)

  /** A key press, with the modifier flags the listeners read. */
  datatype KeyEvent = KeyEvent(key: string, ctrlKey: bool, altKey: bool, shiftKey: bool, repeat: bool)

  /** The message posted to the page. */
  datatype Message = Message(kind: string, column: int)

  const CARET_MESSAGE: string := "spike-caret"
  const NEWLINE: char := '\n'

  // ---------------------------------------------------------------- the probes

  /** Monaco: the first listed editor, or the focused one when none is listed; its
      1-based column less one. */
  function MonacoColumn(m: Option<Monaco>): (col: Option<int>)
    ensures m.Some? && |m.value.editors| > 0 ==>
      col == ZeroBased(m.value.editors[0].column)
    ensures m.Some? && |m.value.editors| == 0 && m.value.focused.Some? ==>
      col == ZeroBased(m.value.focused.value.column)
    ensures m.None? || (|m.value.editors| == 0 && m.value.focused.None?) ==> col.None?
  {
    match m
    case None => None
    case Some(monaco) =>
      var editor := if |monaco.editors| > 0 then Some(monaco.editors[0]) else monaco.focused;
      if editor.Some? && editor.value.column.Some? then Some(editor.value.column.value - 1) else None
  }

  /** A 1-based column made 0-based. */
  function ZeroBased(column: Option<int>): Option<int>
  {
    if column.Some? then Some(column.value - 1) else None
  }

  /** CodeMirror 5: the cursor column of the first instance, already 0-based. */
  function CodeMirrorColumn(instances: Option<seq<Option<int>>>): (col: Option<int>)
    ensures col.Some? <==> instances.Some? && |instances.value| > 0 && instances.value[0].Some?
    ensures col.Some? ==> col == instances.value[0]
  {
    if instances.Some? && |instances.value| > 0 then instances.value[0] else None
  }

  /** CodeMirror 6: `view`, or `cmView` when there is no `view`; the head's distance from
      the start of its line. */
  function ViewColumn(view: Option<View>, cmView: Option<View>): (col: Option<int>)
    ensures view.Some? ==>
      col == HeadOffset(view.value)
    ensures view.None? ==>
      col == if cmView.Some? then HeadOffset(cmView.value) else None
  {
    var v := if view.Some? then view else cmView;
    if v.Some? && v.value.head.Some? && v.value.lineFrom.Some?
    then Some(v.value.head.value - v.value.lineFrom.value)
    else None
  }

  /** The head's distance from the start of its line, when both are known. */
  function HeadOffset(v: View): Option<int>
  {
    if v.head.Some? && v.lineFrom.Some? then Some(v.head.value - v.lineFrom.value) else None
  }

  /** ASCII lower case of one character. */
  function LowerChar(c: char): (l: char)
    ensures 'A' <= c <= 'Z' ==> l as int == c as int + 32
    ensures !('A' <= c <= 'Z') ==> l == c
  {
    if 'A' <= c <= 'Z' then (c as int + 32) as char else c
  }

  /** ASCII lower case of a string. */
  function Lower(s: string): (l: string)
    ensures |l| == |s|
    ensures forall k :: 0 <= k < |s| ==> l[k] == LowerChar(s[k])
  {
    if s == [] then [] else [LowerChar(s[0])] + Lower(s[1..])
  }

  /** The last position at most `from` holding `c`, or -1: the string `lastIndexOf`
      with a non-negative start position. */
  function LastIndexOf(s: string, c: char, from: nat): (r: int)
    ensures -1 <= r <= from && r < |s|
    ensures r >= 0 ==> s[r] == c
    ensures forall k :: r < k <= from && k < |s| ==> s[k] != c
  {
    LastBefore(s, c, if from + 1 < |s| then from + 1 else |s|)
  }

  /** The last position below `end` holding `c`, or -1. */
  function LastBefore(s: string, c: char, end: nat): (r: int)
    requires end <= |s|
    ensures -1 <= r < end
    ensures r >= 0 ==> s[r] == c
    ensures forall k :: r < k < end ==> s[k] != c
  {
    if end == 0 then -1
    else if s[end - 1] == c then end - 1
    else LastBefore(s, c, end - 1)
  }

  /** The column of a textarea caret at `caret` (0 when the selection start is not a
      number): the caret's distance from the character after the newline before it. */
  function TextareaColumn(value: string, caret: Option<int>): (col: int)
    ensures col >= 0
    ensures var i := caret.GetOr(0);
      1 <= i <= |value| ==>
        col <= i &&
        (forall k :: i - col <= k < i ==> value[k] != NEWLINE) &&
        (col < i ==> value[i - col - 1] == NEWLINE)
  {
    var i := caret.GetOr(0);
    var lineStart := LastIndexOf(value, NEWLINE, Max(0, i - 1)) + 1;
    Max(0, i - lineStart)
  }

  /** The fallback probe: answers for a focused textarea, whatever the case of its tag. */
  function ActiveColumn(active: Option<Element>): (col: Option<int>)
    ensures col.Some? <==> active.Some? && Lower(active.value.tagName) == "textarea"
    ensures col.Some? ==> col.value == TextareaColumn(active.value.value, active.value.selectionStart)
  {
    if active.Some? && Lower(active.value.tagName) == "textarea"
    then Some(TextareaColumn(active.value.value, active.value.selectionStart))
    else None
  }

  // ------------------------------------------------------------- the lookup

  /** The probes, in the order they are asked. */
  function Probes(page: Page): seq<Option<int>>
  {
    [MonacoColumn(page.monaco), CodeMirrorColumn(page.codeMirror),
     ViewColumn(page.view, page.cmView), ActiveColumn(page.active)]
  }

  /** Reference: the first answer in a list of answers. */
  function FirstSome(answers: seq<Option<int>>): (r: Option<int>)
    ensures r.None? <==> forall k :: 0 <= k < |answers| ==> answers[k].None?
    ensures r.Some? ==>
      exists k :: 0 <= k < |answers| && answers[k] == r && forall j :: 0 <= j < k ==> answers[j].None?
  {
    if answers == [] then None
    else if answers[0].Some? then answers[0]
    else
      var rest := FirstSome(answers[1..]);
      assert forall k :: 1 <= k < |answers| ==> answers[k] == answers[1..][k - 1];
      if rest.Some? then
        var k :| 0 <= k < |answers[1..]| && answers[1..][k] == rest &&
          forall j :: 0 <= j < k ==> answers[1..][j].None?;
        assert answers[k + 1] == rest;
        rest
      else rest
  }

  /** The caret column: the first probe, in order, that finds one; 0 when none does. */
  function CaretColumn(page: Page): (col: int)
    ensures col == FirstSome(Probes(page)).GetOr(0)
  {
    var monaco := MonacoColumn(page.monaco);
    var codeMirror := CodeMirrorColumn(page.codeMirror);
    var view := ViewColumn(page.view, page.cmView);
    var active := ActiveColumn(page.active);
    assert Probes(page)[1..] == [codeMirror, view, active];
    assert Probes(page)[1..][1..] == [view, active];
    assert Probes(page)[1..][1..][1..] == [active];
    assert FirstSome([active]) == active;
    assert FirstSome([view, active]) == if view.Some? then view else active;
    assert FirstSome([codeMirror, view, active]) == if codeMirror.Some? then codeMirror else FirstSome([view, active]);
    if monaco.Some? then monaco.value
    else if codeMirror.Some? then codeMirror.value
    else if view.Some? then view.value
    else if active.Some? then active.value
    else 0
  }

  // ---------------------------------------------------------- the listeners

  /** Whether the key is R, in either case. */
  predicate IsR(key: string) { key == "r" || key == "R" }

  /** The keys compared with 'r' and 'R' are exactly those whose lower case is "r". */
  lemma IsRMeansLowerR(key: string)
    ensures IsR(key) <==> Lower(key) == "r"
  {
    if |key| == 1 {
      assert Lower(key)[0] == LowerChar(key[0]);
      if Lower(key) == "r" {
        assert key == [key[0]];
      }
    }
  }

  /** The Ctrl+Alt+R listener: posts the caret column, auto-repeat included, whatever the
      case of the R. */
  function OnSendKey(ev: KeyEvent, page: Page): (m: Option<Message>)
    ensures m.Some? <==> ev.ctrlKey && ev.altKey && Lower(ev.key) == "r"
    ensures m.Some? ==> m.value == Message(CARET_MESSAGE, CaretColumn(page))
  {
    IsRMeansLowerR(ev.key);
    if ev.ctrlKey && ev.altKey && IsR(ev.key) then Some(Message(CARET_MESSAGE, CaretColumn(page))) else None
  }

  /** The Ctrl+Shift+R listener: only logs, whatever the case of the R, Alt held or not,
      and never on an auto-repeated key press. */
  function LogsShortcut(ev: KeyEvent): (logs: bool)
    ensures logs <==> !ev.repeat && ev.ctrlKey && ev.shiftKey && Lower(ev.key) == "r"
    ensures ev.repeat ==> !logs
  {
    IsRMeansLowerR(ev.key);
    !ev.repeat && ev.ctrlKey && ev.shiftKey && IsR(ev.key)
  }

  // ------------------------------------------------------------- properties

  /** A caret with no newline before it stands in a column equal to its offset. */
  lemma FirstLineColumn(value: string, i: int)
    requires 0 <= i <= |value|
    requires forall k :: 0 <= k < i ==> value[k] != NEWLINE
    ensures TextareaColumn(value, Some(i)) == i
  {
  }

  /** A caret at the very start, or one whose position is unknown, is in column 0. */
  lemma StartIsColumnZero(value: string)
    ensures TextareaColumn(value, Some(0)) == 0
    ensures TextareaColumn(value, None) == 0
  {
  }

  /** The caret just after a newline starts a line. */
  lemma AfterNewlineIsColumnZero(value: string, i: int)
    requires 1 <= i <= |value|
    requires value[i - 1] == NEWLINE
    ensures TextareaColumn(value, Some(i)) == 0
  {
  }

  /** Shift and auto-repeat do not affect sending; holding Ctrl+Alt+Shift+R both sends and
      logs. */
  lemma SendIgnoresShiftAndRepeat(ev: KeyEvent, page: Page, shift: bool, repeat: bool)
    ensures OnSendKey(ev.(shiftKey := shift, repeat := repeat), page) == OnSendKey(ev, page)
    ensures ev.ctrlKey && ev.altKey && ev.shiftKey && !ev.repeat && IsR(ev.key) ==>
      OnSendKey(ev, page).Some? && LogsShortcut(ev)
  {
  }

  /** A Monaco editor with a column wins over everything else on the page. */
  lemma MonacoTakesPrecedence(page: Page)
    requires page.monaco.Some? && |page.monaco.value.editors| > 0
    requires page.monaco.value.editors[0].column.Some?
    ensures CaretColumn(page) == page.monaco.value.editors[0].column.value - 1
  {
  }

  /** A focused textarea whose tag is written in upper case is still read. */
  lemma UpperCaseTagIsTextarea(value: string, caret: Option<int>)
    ensures ActiveColumn(Some(Element("TEXTAREA", value, caret))) == Some(TextareaColumn(value, caret))
  {
    assert Lower("TEXTAREA") == "textarea";
  }
}
